=== FILE: README.md ===
# J1 assembler (a1.c) in Dafny

A model of `a1`, the assembler for the J1 stack CPU, written in Dafny 4.11 with
proofs about it. The assembler reads source files as whitespace-separated
tokens. It writes 16-bit instruction words into an image of 8192 words and
resolves labels, forward or backward, with fixups. It expands user-defined
microprograms (`<< name field ... >>`) and folds `RETURN` into the previous
word where it can. At the end it checks that every label was defined and
produces the image together with a disassembled listing.

Modules, following the structure of `a1.c`:

- `Base`: the fatal errors (every `die` of the source becomes an `Err`), `Result`, `Option`, and the ASCII case folding of `strcasecmp`.
- `Literals`: `to_u16`, including `strtoul`'s base-0 digit grammar and the 32-bit `unsigned` it stores into.
- `RangeCheck`: the range test of `to_u16`, on 32-bit words.
- `Tokens`: the token stream produced by `next` (split on blank, tab, CR and LF).
- `Isa`: the J1 word layout, the words the emitter builds, and the RETURN peepholes.
- `Microcode`: the `UOP` field table, microprogram bodies, definitions and both lookups.
- `Disassembler`: `disassemble`, that is, what one word reads as in the listing.
- `Labels`: `setlabel`, `uselabel`, `fixup_branch`, `checklabels`, `getlabel`, and the invariant of the label list.
- `Assembler`: `emit`, `assemble_branch`, `assemble`'s token loop, and `main`'s run over several files, ending in the listing (`save`).

The source keeps its state in globals: `rom`, `PC`, the label list and the
microprogram list. Here that state is one `State` value threaded through
pure functions. PC is a natural number from 0 to 8192. Where PC becomes part
of a word (a `.` branch, or a label's address), it is the 16-bit value
`Isa.Word(pc)`.

## Model

| member | source | states |
|---|---|---|
| Literals.DigitRun | a1.c:190 | strtoul stops at the first character that is not a digit of the base: the run is the longest prefix of digits |
| Literals.StrToUnsigned | a1.c:185-190 | the 32-bit `unsigned` holds the token's value when it is in range, 2^32 more than it when it is a negative number down to -2^32, and in every case a value congruent to it modulo 2^32 |
| Literals.UnsignedOfDecimal | a1.c:185-190 | a decimal number below 2^32 is stored in `unsigned n` unchanged |
| Literals.UnsignedOfNegative | a1.c:185-190 | '-' followed by a decimal n, 0 < n <= 2^32, is stored in `unsigned n` as 2^32 - n |
| Literals.ToU16 | a1.c:184-194 | fails, with "not a number" naming the token, exactly when the first character is neither a digit nor '-'; otherwise yields the signed value modulo 2^16, so negative literals become their two's complement |
| Literals.DecimalMagnitude | a1.c:190 | a decimal rendering of n has magnitude n whatever base strtoul picks for it ("0" is read as octal) |
| Literals.DecimalRoundTrip | a1.c:184-194 | a number written in decimal is accepted and reads back as itself modulo 2^16 |
| Literals.NegativeRoundTrip | a1.c:187-193 | '-' followed by a decimal number is accepted and yields the 16-bit two's complement of its negation |
| Literals.HexRoundTrip | a1.c:184-194 | `0x` followed by hex digits is accepted and reads back as the number modulo 2^16 |
| Literals.HexUpperRoundTrip | a1.c:184-194 | `0X` followed by upper-case hex digits is accepted too and reads back as the number modulo 2^16 |
| Literals.OctalRoundTrip | a1.c:184-194 | a leading `0` followed by octal digits is read in base 8 (`010` is 8) and reads back as the number modulo 2^16 |
| Literals.StopsAtNonDigit | a1.c:190 | whatever follows a decimal number from its first non-digit on is ignored, except that `0` followed by `x` or `X` starts a hexadecimal literal |
| RangeCheck.MaskTests | a1.c:191 | the two mask tests mean n >= 2^16 and n < 2^15 |
| RangeCheck.RangeCheckIsDead | a1.c:191-192 | the "not a 16bit number" test can never fire: no 32-bit value passes both masks |
| Tokens.WordLength | a1.c:175-177 | a token runs to the first separator: every character before it is a non-separator and the one at its end is a separator |
| Tokens.Tokenize | a1.c:160-182 | every token is non-empty and holds no separator, and the tokens glued together are exactly the text with its separators removed |
| Tokens.TokenizeToken | a1.c:175-177 | a single run of non-separators is one token: runs are never broken up |
| Tokens.TokenizeAtSeparator | a1.c:175-177 | a separator splits the text into the tokens before it followed by the tokens after it; with TokenizeToken this fixes every split |
| Tokens.TokenizeRender | a1.c:175-177 | tokenizing tokens written out with one blank after each gives the same tokens back |
| Isa.WordFits | a1.c:307-308 | a position inside the 8192-word image fits the 13-bit target field and leaves the class bits clear |
| Isa.WordValue | a1.c:307-308 | the word built from a count below 2^16 reads back, bit by bit, as that count, so the PC or-ed into a `.` branch or stored as a label's address is the PC itself |
| Isa.WordTarget | a1.c:307-308 | the word of a position inside the image has that position as the binary reading of its 13-bit target field |
| Isa.WordInjective | a1.c:336 | distinct positions get distinct words, so labels at different positions have different addresses |
| Isa.Patch | a1.c:60 | the patched word keeps the class bits of the old word and carries the new target |
| Isa.PushWords | a1.c:349-354 | PUSH writes one or two words and the first is a literal; it writes exactly one when bit 15 of the value is clear |
| Isa.TailCall | a1.c:369-371 | clearing the call bit gives a jump to the same target |
| Isa.FoldableIsNotBranch | a1.c:365-368 | a word RETURN folds into is an ALU word, never a literal or a branch |
| Isa.BareBranch | a1.c:310 | the word emitted for a branch to a label, before the label is resolved, is a branch of its class with target 0 |
| Isa.BranchToPosition | a1.c:307-308 | the operand's class or-ed with PC, for a position in the image is a branch of the operand's kind to that position |
| Isa.PatchBare | a1.c:57-61 | patching the bare class word gives the class or-ed with the target, the same word as emitting it directly |
| Isa.ByteTarget | a1.c:242 | the listed target is twice the binary reading of the 13-bit target field: an even byte address inside the image |
| Isa.BranchWordBits | a1.c:240-249 | a class or-ed with an in-range target has bit 15 clear, that class and that target |
| Isa.FoldedBits | a1.c:251-256 | a folded return shows as R->PC and R- with T->R clear; taking it out restores the word; the result is the plain return word exactly when the word was bare ALU |
| Microcode.UopTable | a1.c:201-231 | the 27 fields, ALU (0x6000) first; no field name begins with a digit or '-', so none is also read as a number |
| Microcode.UopFromFindsFirst | a1.c:286-291 | the field scan succeeds exactly when some entry spells the token, ignoring case, and then yields the value of the first such entry |
| Microcode.TokenWord | a1.c:286-292 | a body token fails exactly when it is neither a field name nor a number, with "not a number"; a field name yields the value of its first table entry, and any other token its literal value modulo 2^16 |
| Microcode.AccumulateOk | a1.c:283-293 | the body loop succeeds exactly when every token evaluates |
| Microcode.AccumulateMisses | a1.c:288-292 | when the loop succeeds, its result has none of a mask's bits exactly when the start value and every token's word have none |
| Microcode.BodyWordIsUnion | a1.c:275-293 | a body's word fails exactly when some token fails, and otherwise its bits are the union of the tokens' bits |
| Microcode.BodyWordMisses | a1.c:283-293 | the union property read over the set of tokens of the body |
| Microcode.BodyWordDependsOnTokenSet | a1.c:283-293 | token order and repetition do not matter: two bodies with the same tokens both fail or give the same word |
| Microcode.Define | a1.c:295-299 | a definition goes at the head of the list, in front of all earlier ones |
| Microcode.ByName | a1.c:376-381 | lookup by name ignoring case finds nothing exactly when no name matches, and otherwise the word of the first (newest) match |
| Microcode.ByValue | a1.c:257-262 | lookup by word finds nothing exactly when no microprogram has that word, and otherwise the name of the first (newest) one |
| Microcode.NewestDefinitionWins | a1.c:295-299 | after a definition, its name in any spelling finds the new word, and every other name finds what it found before |
| Microcode.NextMark | a1.c:323-328 | the scan finds the first occurrence of the mark at or after a position, and nothing exactly when there is none |
| Microcode.EndIsNotAWord | a1.c:284-292 | the end-of-input marker is neither a field name nor a number, so input that ends inside a body fails as "not a number" |
| Microcode.ReadMicroprogram | a1.c:271-301 | a definition that succeeds ends at the first `>>` and has the name token and the word of the tokens between; when a `>>` follows and every token between evaluates, it succeeds |
| Microcode.ReadMicroprogramErrors | a1.c:283-293 | a definition fails with the body loop's error when a token up to the first `>>` (or up to the end of the input) does not evaluate, and with "not a number" on the end-of-input marker when every token does and no `>>` follows |
| Microcode.ReadsUpToTerminator | a1.c:278-299 | `<< name body >>` with no `>>` in the body defines the name as the body's word and reads the body and three tokens more |
| Microcode.StoreWordsAreFields | a1.c:355-357 | the STORE words are ALU N D- N->[T] and ALU N D- from the field table |
| Microcode.LoadWordsAreFields | a1.c:358-360 | the LOAD words are ALU T and ALU [T] from the field table |
| Microcode.ReturnAndInvertAreFields | a1.c:350-373 | ~T, the return bits and the plain return word are made of the fields ALU, ~T, R->PC and R- |
| Disassembler.Decode | a1.c:233-269 | a word reads as a literal exactly when bit 15 is set and as a branch exactly when it is one; a bare RETURN has a folded return and no microprogram for the rest; ", RETURN" appears exactly when a return was folded; "???" exactly for an ALU word with no folded return and no microprogram |
| Disassembler.DecodeLiteral | a1.c:236-238 | a value with bit 15 clear is pushed as one literal, which reads back as the value |
| Disassembler.DecodeComplementPush | a1.c:349-351 | a value with bit 15 set is pushed as the literal of its complement and then ~T; complementing the literal read back gives the value |
| Disassembler.DecodeBranchWord | a1.c:240-249 | a branch word reads as the branch of its class to its byte target |
| Disassembler.DecodeBranch | a1.c:240-249 | a branch of any kind to word t reads back as that kind of branch to the byte address twice the binary reading of t |
| Disassembler.DecodeBranchesTo | a1.c:240-249 | any word that is a branch of a kind to word t reads as that kind of branch to the byte address twice the reading of t |
| Disassembler.DecodeTailCall | a1.c:241-243 | a call turned into a jump by RETURN reads as a jump to the call's target |
| Disassembler.DecodeFoldedReturn | a1.c:251-266 | a return folded into an ALU word reads as the word's microprogram with ", RETURN", or as RETURN when no microprogram has the word; folded into bare ALU, it reads as the plain return word |
| Disassembler.DecodePlainReturn | a1.c:251-268 | the plain return word is never read as RETURN: it reads as a microprogram with exactly that word, or as "???" |
| Disassembler.DecodeAluWord | a1.c:250-268 | an ALU word with no folded return reads as the newest microprogram with exactly that word, or as "???" when there is none |
| Disassembler.DecodeStoreWords | a1.c:355-357 | the two STORE words carry no return and read as a microprogram with exactly that word, or as "???" |
| Disassembler.DecodeLoadWords | a1.c:358-360 | the two LOAD words carry no return and read as a microprogram with exactly that word, or as "???" |
| Disassembler.DecodeMicroprogram | a1.c:257-262 | an ALU word just defined as a microprogram, with no return bits, reads as that microprogram's name |
| Labels.FixupBranch | a1.c:57-61 | fails exactly when the target exceeds 0x1FFF; otherwise only the site changes, keeping its class bits and taking the target |
| Labels.PatchAll | a1.c:73-75 | every recorded site is patched to the target and no other word changes; it fails exactly when there is a site and the target is out of range |
| Labels.PatchTwice | a1.c:60 | patching is idempotent |
| Labels.Find | a1.c:67-68 | the label search finds the first label whose name matches ignoring case, and nothing exactly when none does |
| Labels.SetLabel | a1.c:63-86 | defining a defined label fails with "cannot redefine"; a new name is added, defined, at the head; a label only referred to so far gets the address and all its sites are patched, and this fails, as an invalid target, exactly when patching does |
| Labels.UseLabelRecords | a1.c:96-124 | after a reference the label is known; the site then holds the label's address, keeping its class bits, or is among the label's fixups with the image untouched |
| Labels.UseLabel | a1.c:96-124 | a new name is added at the head, undefined, with the site as its fixup; an undefined label gains the site; a defined one has the site patched at once and the list is unchanged |
| Labels.CheckLabels | a1.c:126-131 | succeeds exactly when every label is defined, and otherwise names the first undefined label |
| Labels.GetLabel | a1.c:88-94 | finds nothing exactly when no label is defined at the position, and otherwise the name of the first (newest) one |
| Labels.SetLabelDefines | a1.c:67-85 | after a definition succeeds, the name in the same spelling finds a label with that address |
| Labels.ReferenceThenDefinition | a1.c:96-124 | a reference to a label that is still undefined, followed by its definition, patches that branch together with every earlier fixup |
| Labels.DefinitionThenReference | a1.c:100-105 | a definition followed by a reference gives the same image: the branch is patched at once |
| Labels.ForwardAndBackwardAgree | a1.c:63-124 | a reference before the definition and a reference after it give the same image |
| Labels.CannotRedefineLabel | a1.c:67-70 | a second definition of a label, in any spelling, fails with "cannot redefine" |
| Labels.SetLabelKeeps | a1.c:63-86 | a definition keeps the list well formed: names distinct ignoring case, no site under two labels, and every site below PC holding a branch to its label's address, or to 0 while the label is undefined |
| Labels.UseLabelKeeps | a1.c:96-124 | recording the branch just emitted keeps the list well formed one position further on |
| Assembler.Start | a1.c:32-55 | a run starts with PC 0, no labels and no microprograms, in a consistent state |
| Assembler.Emit | a1.c:133-135 | writes the word at PC and advances PC; nothing else changes; a full image is the RomFull error |
| Assembler.EmitAll | a1.c:355-360 | writes the words at PC in order, leaving the rest of the image unchanged; fails exactly when they do not fit |
| Assembler.Return | a1.c:361-374 | fails with nothing emitted, or when it must emit into a full image; a foldable previous word becomes that word or-ed with R->PC R-, a call becomes the jump to its target, and otherwise the plain return word 0x700C is appended after the unchanged previous word; nothing else changes |
| Assembler.Classify | a1.c:321-383 | `(`, `<<` and `:` are recognised only as written, each mnemonic exactly when the token spells it ignoring case, and any other token is a microprogram invocation |
| Assembler.LowerCaseCall | a1.c:337 | `call` in lower case is the CALL mnemonic |
| Assembler.MixedCaseReturn | a1.c:361 | `rEtUrN` in mixed case is the RETURN mnemonic |
| Assembler.LongerIsInvocation | a1.c:337-382 | a token that only starts with a mnemonic, such as `CALLS`, is looked up as a microprogram |
| Assembler.MnemonicsDistinct | a1.c:337-361 | no token spells two mnemonics ignoring case, and no punctuation mark spells a mnemonic, so the order of the tests does not matter |
| Assembler.Branch | a1.c:303-313 | a branch fails when the image is full, and with `.` succeeds otherwise; it writes a branch of its kind at PC and nothing else, and with `.` its target is PC |
| Assembler.BranchHere | a1.c:307-308 | `.` writes a branch of the operand's kind to PC itself, leaving the labels and the rest of the image alone; it fails exactly when the image is full |
| Assembler.BranchTo | a1.c:309-311 | a label operand leaves the label known; the word at PC is a branch of the operand's kind to the label's address when it is defined, and otherwise the bare class word recorded among the label's fixups; nothing else in the image changes |
| Assembler.LabelDefinition | a1.c:332-336 | a label already defined fails with "cannot redefine"; otherwise, inside the image, the label is defined at PC and is found afterwards, in any spelling, with that address; PC does not move |
| Assembler.WithOperand | a1.c:332-354 | `:` defines its operand at PC without moving PC; a branch writes one branch word of its kind; PUSH fails naming a non-numeric operand and otherwise writes the push words of its value |
| Assembler.Single | a1.c:355-382 | STORE and LOAD write their two fixed words at PC; RETURN leaves a word that ends a routine last; any other token writes the word of the microprogram of that name, or fails with "cannot process" when there is none |
| Assembler.Push | a1.c:343-354 | a non-numeric operand fails with "not a number", and otherwise PUSH writes exactly the push words of its value |
| Assembler.Invocation | a1.c:375-382 | an unknown token fails with "cannot process", and otherwise the word of the newest microprogram with that name is emitted |
| Assembler.Comment | a1.c:322-329 | a comment fails exactly when no `)` follows, and otherwise skips up to and including the first `)` without changing the state |
| Assembler.Definition | a1.c:330-331 | `<<` reads one definition and puts it in front of the microprogram list, or fails as the definition does |
| Assembler.Step | a1.c:321-384 | a step reads at least one token and never moves PC back |
| Assembler.Assemble | a1.c:315-385 | assembling a file keeps the state consistent and never moves PC back |
| Assembler.AssembleFiles | a1.c:395-411 | the files in order, each on the state the previous one left, keep the state consistent |
| Assembler.StepKeepsValid | a1.c:315-385 | every step keeps the labels consistent with the image |
| Assembler.BranchToItself | a1.c:337-342 | `CALL .`, `B .` and `BZ .`, in any case, read two tokens and write at PC a branch of their kind to PC, which reads back as a call, jump or conditional jump to PC's byte address |
| Assembler.BranchForward | a1.c:309-311 | a branch to a label not defined yet emits the bare class word, and the label is then undefined with that position among its fixups |
| Assembler.BranchBackward | a1.c:103-105 | a branch to a defined label writes the class or-ed with its address and leaves the labels alone; an address past 0x1FFF fails as an invalid target |
| Assembler.ItselfIsLabelHere | a1.c:332-336 | `: x` followed by a branch to `x` gives the same image as a branch to `.` |
| Assembler.BranchHereReadsBack | a1.c:307-308 | the word `.` writes reads back as a branch of its kind to PC's byte address |
| Assembler.LabelHere | a1.c:303-313 | a branch to a label defined at PC writes the same image as a branch to `.` |
| Assembler.StepReads | a1.c:332-346 | `:`, the branches and PUSH read one more token, and input that ends first fails with "EOF?"; STORE, LOAD, RETURN and other words read one token |
| Assembler.MnemonicSteps | a1.c:337-374 | STORE, LOAD and RETURN, in any case, read one token and do the STORE sequence, the LOAD sequence and the RETURN peephole; PUSH, CALL, B and BZ read their operand and push it, or branch to it as a call, a jump or a conditional jump |
| Assembler.CommentIsSkipped | a1.c:322-329 | a comment followed by more input assembles exactly as the input after it |
| Assembler.CommentMustClose | a1.c:323-326 | a comment that the input ends inside fails with "unterminated comment" |
| Assembler.FoldedReturnReadsBack | a1.c:365-368 | RETURN after a foldable ALU word other than bare ALU emits nothing, and the word then reads as its microprogram with ", RETURN", or as RETURN |
| Assembler.TailCallReadsBack | a1.c:369-371 | RETURN after a call emits nothing, and the call reads back as a jump to the same target |
| Assembler.DefineThenInvoke | a1.c:330-331 | a definition is read up to its `>>`, and afterwards its name, in any spelling, stands for the word of its body |
| Assembler.MnemonicsShadowMicroprograms | a1.c:322-375 | comments, labels and mnemonics act the same whatever microprograms exist, even one with a mnemonic's name: microprograms are only looked up for other tokens |
| Assembler.Listing | a1.c:139-155 | one listing line per emitted word, in order, with its byte address; a line has no label exactly when no label is defined at its position |
| Assembler.Run | a1.c:387-422 | a run that succeeds assembled every file and lists a non-empty image, one line per word |
| Assembler.RunResolves | a1.c:413-420 | once the files are assembled, the run succeeds exactly when something was emitted and every label is defined; the image is the words below PC, and every recorded site is a branch to its label's address |

## Left out

- File handling, `-o` and the output file: `main`'s argument loop is modelled as a list of source texts. Opening, reading and writing files, and the exact text of the listing lines, are I/O.
- Diagnostics text: `die` prints the file name, line number and offending line. Here an error is only which error it is (`Base.Error`), with the token or value it names.
- Line buffering: `next` reads lines of at most 255 characters with `fgets`, so a longer line is split at that length, possibly inside a token. The model tokenizes whole texts.
- NUL bytes: in the source a NUL byte ends the C string `fgets` stored, so the rest of that line is never tokenized. Source texts here are sequences of characters, and a NUL inside a line is an ordinary token character.
- Per-file tokens: the strtok_r state carried across files is not modelled. Each file is tokenized on its own, so a comment, a definition or an operand cannot span two files. At a file's end `next` returns the end marker, so in the source they cannot span files either.
- Literals.ToU16: strtoul saturates at ULONG_MAX for magnitudes of 2^64 and more; the model reduces every value modulo 2^32 instead.
- Assembler.Emit: `emit` has no bounds check, and writing past word 8191 is undefined behaviour in C. The model stops with the RomFull error instead.
- The `name == END` test in `assemble_microprogram` compares the address of a fresh copy with the address of END and never fires. A definition at the end of the input therefore has the empty name. The model reads the missing name as "" and fails on the body, as the source does.
- The final `assemble()` call in `main` runs after every file has been closed, so it reads no token and does nothing. It is not modelled.
- Memory allocation failure is not modelled. The fixup sites stay in the label list after a label is defined, as in the source, and `Labels.WellFormed` constrains them; no record is kept of which sites were already patched, since nothing in the source reads one.
- Assembler.Step: its contract states only that a step reads a token and keeps PC from moving back. Which directive a token selects is stated by `Classify`; how many tokens each reads by `StepReads`; what each mnemonic writes by `MnemonicSteps` and `BranchToItself`, together with the contracts of `Comment`, `Definition`, `WithOperand`, `Single`, `Return` and `EmitAll`.
- Assembler.Assemble: its contract states only the invariant and PC growth. How particular inputs assemble is stated by `CommentIsSkipped`, `CommentMustClose` and the lemmas about single steps.
- Assembler.AssembleFiles: its contract states only the invariant and PC growth.
- Assembler.Run: its own contract is weak. `RunResolves` states when a run succeeds and what the image holds.
- Assembler.Listing: the contract does not restate how each word is read. What a word reads as is stated by the `Disassembler` lemmas.
- Labels are `Option` addresses, not the 0xFFFF sentinel. PC never exceeds 8192, so no defined label can have the sentinel value and the two encodings agree.

## Notes

- Microprogram lookup: the source adds each definition at the head of its list and scans from the head, so the newest definition of a name wins, both for `ByName` and in the listing (`ByValue`). The model follows the code.
- The range test in `to_u16` is kept in `ToU16` as it is written, and `RangeCheck.RangeCheckIsDead` shows it can never reject a value.
- What a word reads as is stated by the `Disassembler` lemmas on the words the `Assembler` lemmas show are written. `Disassembler.DecodeBranch`, for example, is about the word that `Assembler.BranchToItself` and `Assembler.BranchBackward` show is emitted.
- `Branch`, `BranchHere`, `BranchTo` and `Push` require only a full-size image and PC within it. The label invariant is needed only by the lemmas that talk about labels.

=== FILE: assembler.dfy ===
/** The assembler proper: the token loop of `assemble` with its directives,
    the branch rules of `assemble_branch`, the RETURN peepholes, and a run
    over several source texts that ends in checklabels and the listing.
    What the source keeps in globals (rom, PC, the label list and the
    microprogram list) is one State value threaded through. */
module Assembler {
  import opened Base
  import opened Literals
  import opened Isa
  import opened Microcode
  import opened Labels
  import opened Disassembler
  import opened Tokens

  /** `pc` counts words, 0 to RomSize; where it becomes part of a word (a
      `.` branch, a label's address) it is taken as the 16-bit value the
      source's unsigned PC converts to. */
  datatype State = State(rom: Rom, pc: nat, labels: seq<Label>, ups: seq<Microprogram>)

  /** What holds between any two tokens: a full-size image, PC inside it,
      and a label list consistent with the words emitted so far. */
  predicate Valid(st: State) {
    |st.rom| == RomSize && st.pc <= RomSize && WellFormed(st.labels, st.rom, st.pc)
  }

  /** The state before the first file: a zeroed image, no labels and no
      microprograms. */
  function Start(): (st: State)
    ensures Valid(st) && st.pc == 0 && st.labels == [] && st.ups == []
  {
    var rom := seq(RomSize, _ => 0 as bv16);
    WellFormedEmpty(rom, 0);
    State(rom, 0, [], [])
  }

  // ---------------------------------------------------------------------
  // Writing words

  /** emit: write `w` at PC and advance. The source writes past the image
      when it is full; here that is the RomFull error. */
  function Emit(st: State, w: bv16): (r: Result<State>)
    requires |st.rom| == RomSize && st.pc <= RomSize
    ensures r.Err? <==> st.pc == RomSize
    ensures r.Err? ==> r.error == RomFull
    ensures r.Ok? ==> r.value.pc == st.pc + 1 && |r.value.rom| == RomSize
    ensures r.Ok? ==> r.value.rom[st.pc] == w
    ensures r.Ok? ==> forall k :: 0 <= k < RomSize && k != st.pc ==> r.value.rom[k] == st.rom[k]
    ensures r.Ok? ==> r.value.labels == st.labels && r.value.ups == st.ups
  {
    if st.pc == RomSize then Err(RomFull)
    else Ok(st.(rom := st.rom[st.pc := w], pc := st.pc + 1))
  }

  /** `st'` is `st` with the words `ws` written from PC on and PC moved
      past them. */
  predicate Wrote(st: State, st': State, ws: seq<bv16>) {
    st'.pc == st.pc + |ws| && st'.pc <= |st'.rom| &&
    forall j :: 0 <= j < |ws| ==> st'.rom[st.pc + j] == ws[j]
  }

  /** Several `emit`s in a row. */
  function EmitAll(st: State, ws: seq<bv16>): (r: Result<State>)
    requires |st.rom| == RomSize && st.pc <= RomSize
    ensures r.Err? <==> st.pc + |ws| > RomSize
    ensures r.Err? ==> r.error == RomFull
    ensures r.Ok? ==> r.value.pc == st.pc + |ws| && |r.value.rom| == RomSize
    ensures r.Ok? ==> Wrote(st, r.value, ws)
    ensures r.Ok? ==> forall k :: 0 <= k < st.pc ==> r.value.rom[k] == st.rom[k]
    ensures r.Ok? ==> forall k :: st.pc + |ws| <= k < RomSize ==> r.value.rom[k] == st.rom[k]
    ensures r.Ok? ==> r.value.labels == st.labels && r.value.ups == st.ups
    decreases |ws|
  {
    if |ws| == 0 then Ok(st)
    else
      var st' :- Emit(st, ws[0]);
      EmitAll(st', ws[1..])
  }

  // ---------------------------------------------------------------------
  // The directives

  /** What `assemble` makes of a token, recognized in the source's order:
      the punctuation exactly, then the mnemonics ignoring case; only a
      token that is none of these is looked up among the microprograms. */
  datatype Directive =
    | OpenComment | OpenDefinition | LabelMark
    | BranchOp(kind: BranchKind) | PushOp | StoreOp | LoadOp | ReturnOp
    | Invoke

  /** Each mnemonic selects its directive exactly when the token spells
      it, ignoring case; the punctuation must match exactly. */
  function Classify(t: string): (d: Directive)
    ensures d == OpenComment <==> t == "("
    ensures d == OpenDefinition <==> t == "<<"
    ensures d == LabelMark <==> t == ":"
    ensures d == BranchOp(CallKind) <==> SameIgnoringCase(t, "CALL")
    ensures d == BranchOp(JumpKind) <==> SameIgnoringCase(t, "B")
    ensures d == BranchOp(JumpZKind) <==> SameIgnoringCase(t, "BZ")
    ensures d == PushOp <==> SameIgnoringCase(t, "PUSH")
    ensures d == StoreOp <==> SameIgnoringCase(t, "STORE")
    ensures d == LoadOp <==> SameIgnoringCase(t, "LOAD")
    ensures d == ReturnOp <==> SameIgnoringCase(t, "RETURN")
  {
    MnemonicsDistinct(t);
    if t == "(" then OpenComment
    else if t == "<<" then OpenDefinition
    else if t == ":" then LabelMark
    else if SameIgnoringCase(t, "CALL") then BranchOp(CallKind)
    else if SameIgnoringCase(t, "B") then BranchOp(JumpKind)
    else if SameIgnoringCase(t, "BZ") then BranchOp(JumpZKind)
    else if SameIgnoringCase(t, "PUSH") then PushOp
    else if SameIgnoringCase(t, "STORE") then StoreOp
    else if SameIgnoringCase(t, "LOAD") then LoadOp
    else if SameIgnoringCase(t, "RETURN") then ReturnOp
    else Invoke
  }

  /** The last word written ends a routine: an ALU word with R->PC and R-
      set, or a jump. */
  predicate EndsRoutine(w: bv16) {
    (w & ClassMask == AluClass && w & ReturnBits == ReturnBits) || (IsBranch(w) && w & ClassMask == JumpClass)
  }

  /** RETURN: the previous word takes the return when it is an ALU word that
      leaves the return stack alone, or becomes a jump when it is a call;
      otherwise the plain return word is emitted. With nothing emitted yet
      there is nothing to return from. */
  function Return(st: State): (r: Result<State>)
    requires |st.rom| == RomSize && st.pc <= RomSize
    ensures st.pc == 0 ==> r == Err(NothingToReturnFrom)
    ensures r.Err? <==>
      st.pc == 0 || (st.pc == RomSize && !CanFoldReturn(st.rom[st.pc - 1]) && !IsCall(st.rom[st.pc - 1]))
    ensures r.Ok? ==> |r.value.rom| == RomSize && r.value.labels == st.labels && r.value.ups == st.ups
    ensures r.Ok? ==> (r.value.pc == st.pc <==> CanFoldReturn(st.rom[st.pc - 1]) || IsCall(st.rom[st.pc - 1]))
    ensures r.Ok? ==> r.value.pc == st.pc || r.value.pc == st.pc + 1
    ensures r.Ok? ==> EndsRoutine(r.value.rom[r.value.pc - 1])
    ensures r.Ok? ==> forall k :: 0 <= k < RomSize && k != st.pc - 1 && k != st.pc ==> r.value.rom[k] == st.rom[k]
    ensures r.Ok? && CanFoldReturn(st.rom[st.pc - 1]) ==>
      r.value.rom == st.rom[st.pc - 1 := st.rom[st.pc - 1] | ReturnBits]
    ensures r.Ok? && IsCall(st.rom[st.pc - 1]) ==> r.value.rom == st.rom[st.pc - 1 := TailCall(st.rom[st.pc - 1])]
    ensures r.Ok? && !CanFoldReturn(st.rom[st.pc - 1]) && !IsCall(st.rom[st.pc - 1]) ==>
      r.value.rom[st.pc] == PlainReturn && r.value.rom[st.pc - 1] == st.rom[st.pc - 1]
  {
    if st.pc == 0 then Err(NothingToReturnFrom)
    else
      var prior := st.rom[st.pc - 1];
      if CanFoldReturn(prior) then Ok(st.(rom := st.rom[st.pc - 1 := prior | ReturnBits]))
      else if IsCall(prior) then Ok(st.(rom := st.rom[st.pc - 1 := TailCall(prior)]))
      else Emit(st, PlainReturn)
  }

  /** No token spells two mnemonics, or a mnemonic and a punctuation mark;
      only names of the same length need a look at their letters. */
  lemma MnemonicsDistinct(t: string)
    ensures !SameIgnoringCase("(", "B") && !SameIgnoringCase(":", "B") && !SameIgnoringCase("<<", "BZ")
    ensures !(SameIgnoringCase(t, "CALL") && SameIgnoringCase(t, "PUSH"))
    ensures !(SameIgnoringCase(t, "CALL") && SameIgnoringCase(t, "LOAD"))
    ensures !(SameIgnoringCase(t, "PUSH") && SameIgnoringCase(t, "LOAD"))
  {
    assert ToLower('(') != ToLower("B"[0]) && ToLower(':') != ToLower("B"[0]);
    assert ToLower('<') != ToLower("BZ"[0]);
    if SameIgnoringCase(t, "CALL") || SameIgnoringCase(t, "PUSH") || SameIgnoringCase(t, "LOAD") {
      assert |t| == 4;
      assert ToLower(t[0]) == ToLower("CALL"[0]) || ToLower(t[0]) == ToLower("PUSH"[0]) || ToLower(t[0]) == ToLower("LOAD"[0]);
    }
  }

  /** Mnemonics are matched in any mix of cases: `call` is CALL. */
  lemma LowerCaseCall()
    ensures Classify("call") == BranchOp(CallKind)
  {
    assert SameIgnoringCase("call", "CALL") by {
      assert forall i :: 0 <= i < 4 ==> ToLower("call"[i]) == ToLower("CALL"[i]);
    }
  }

  /** `rEtUrN` is RETURN. */
  lemma MixedCaseReturn()
    ensures Classify("rEtUrN") == ReturnOp
  {
    assert SameIgnoringCase("rEtUrN", "RETURN") by {
      assert forall i :: 0 <= i < 6 ==> ToLower("rEtUrN"[i]) == ToLower("RETURN"[i]);
    }
  }

  /** Only whole tokens match: `CALLS` is no mnemonic and is looked up as a
      microprogram. */
  lemma LongerIsInvocation()
    ensures Classify("CALLS") == Invoke
  {
    assert !SameIgnoringCase("CALLS", "STORE") by {
      assert ToLower("CALLS"[0]) != ToLower("STORE"[0]);
    }
  }

  /** The mnemonics that read one more token: `:`, the branches and PUSH. */
  predicate TakesOperand(d: Directive) {
    d.LabelMark? || d.BranchOp? || d.PushOp?
  }

  /** assemble_branch with its operand: a `.` branches to the branch's own
      position, anything else is a label. Either way the word written at PC
      is a branch of kind `k`, and nothing else in the image changes. */
  function Branch(name: string, st: State, k: BranchKind): (r: Result<State>)
    requires |st.rom| == RomSize && st.pc <= RomSize
    ensures st.pc == RomSize ==> r == Err(RomFull)
    ensures name == "." && st.pc < RomSize ==> r.Ok?
    ensures r.Ok? ==> r.value.pc == st.pc + 1 && |r.value.rom| == RomSize && r.value.ups == st.ups
    ensures r.Ok? ==> BranchOfKind(r.value.rom[st.pc], k)
    ensures r.Ok? ==> forall j :: 0 <= j < RomSize && j != st.pc ==> r.value.rom[j] == st.rom[j]
    ensures r.Ok? && name == "." ==> TargetField(r.value.rom[st.pc]) == Word(st.pc)
  {
    if name == "." then BranchHere(st, k) else BranchTo(name, st, k)
  }

  /** `.`: the branch word carries its own position as target. */
  function BranchHere(st: State, k: BranchKind): (r: Result<State>)
    requires |st.rom| == RomSize && st.pc <= RomSize
    ensures r.Err? <==> st.pc == RomSize
    ensures r.Err? ==> r.error == RomFull
    ensures r.Ok? ==> r.value.pc == st.pc + 1 && |r.value.rom| == RomSize && r.value.ups == st.ups
    ensures r.Ok? ==> BranchesTo(r.value.rom[st.pc], k, Word(st.pc)) && r.value.labels == st.labels
    ensures r.Ok? ==> forall j :: 0 <= j < RomSize && j != st.pc ==> r.value.rom[j] == st.rom[j]
  {
    Emit(st, BranchAt(k, st.pc))
  }

  /** A label operand: the bare class word is emitted and handed to
      uselabel, which patches it at once when the label is defined and
      records it as a fixup otherwise. Afterwards the label is known, and
      the word at PC is a branch of kind `k` to its address, or the bare
      class word recorded among its fixups. */
  function BranchTo(name: string, st: State, k: BranchKind): (r: Result<State>)
    requires |st.rom| == RomSize && st.pc <= RomSize
    ensures st.pc == RomSize ==> r == Err(RomFull)
    ensures r.Ok? ==> r.value.pc == st.pc + 1 && |r.value.rom| == RomSize && r.value.ups == st.ups
    ensures r.Ok? ==> forall j :: 0 <= j < RomSize && j != st.pc ==> r.value.rom[j] == st.rom[j]
    ensures r.Ok? ==> Find(r.value.labels, name).Some?
    ensures r.Ok? ==>
      var l := r.value.labels[Find(r.value.labels, name).value];
      match l.addr
      case Some(a) => BranchesTo(r.value.rom[st.pc], k, a)
      case None => r.value.rom[st.pc] == ClassOf(k) && st.pc in l.sites
  {
    var st' :- Emit(st, ClassOf(k));
    var (labels, rom) :- UseLabel(st'.labels, st'.rom, name, st.pc);
    BareBranch(k);
    UseLabelRecords(st'.labels, st'.rom, name, st.pc);
    SameClassSameBranch(ClassOf(k), rom[st.pc]);
    Ok(st'.(labels := labels, rom := rom))
  }

  /** PUSH with its operand: read with to_u16, pushed as one or two words. */
  function Push(operand: string, st: State): (r: Result<State>)
    requires |st.rom| == RomSize && st.pc <= RomSize
    ensures ToU16(operand).Err? ==> r == Err(NotANumber(operand))
    ensures ToU16(operand).Ok? ==> r == EmitAll(st, PushWords(ToU16(operand).value))
  {
    var n :- ToU16(operand);
    EmitAll(st, PushWords(n))
  }

  /** `:` with its operand: setlabel at PC. A label already defined is
      fatal; otherwise, inside the image, the label is defined here, found
      afterwards under any spelling, and the image keeps its size. */
  function LabelDefinition(name: string, st: State): (r: Result<State>)
    requires Valid(st)
    ensures !Undefined(st.labels, name) ==> r == Err(CannotRedefine(name))
    ensures Undefined(st.labels, name) && st.pc < RomSize ==> r.Ok?
    ensures r.Ok? ==> r.value.pc == st.pc && |r.value.rom| == RomSize && r.value.ups == st.ups
    ensures r.Ok? ==>
      Find(r.value.labels, name).Some? && r.value.labels[Find(r.value.labels, name).value].addr == Some(Word(st.pc))
  {
    WellFormedSitesIn(st.labels, st.rom, st.pc);
    assert st.pc < RomSize ==> Word(st.pc) <= MaxTarget by {
      if st.pc < RomSize { WordFits(st.pc); }
    }
    var (labels, rom) :- SetLabel(st.labels, st.rom, name, Word(st.pc));
    SetLabelDefines(st.labels, st.rom, name, Word(st.pc));
    Ok(st.(labels := labels, rom := rom))
  }

  /** A directive with its operand: a label is defined at PC without
      writing anything; a branch writes one branch word of its kind; PUSH
      writes the words that push the operand's value, or fails naming it. */
  function WithOperand(d: Directive, operand: string, st: State): (r: Result<State>)
    requires TakesOperand(d) && Valid(st)
    ensures r.Ok? ==> st.pc <= r.value.pc <= RomSize && |r.value.rom| == RomSize
    ensures d.LabelMark? && r.Ok? ==> r.value.pc == st.pc && Find(r.value.labels, operand).Some?
    ensures d.BranchOp? && r.Ok? ==>
      r.value.pc == st.pc + 1 && BranchOfKind(r.value.rom[st.pc], d.kind)
    ensures d.PushOp? && ToU16(operand).Err? ==> r == Err(NotANumber(operand))
    ensures d.PushOp? && r.Ok? ==> Wrote(st, r.value, PushWords(ToU16(operand).value))
  {
    match d
    case LabelMark => LabelDefinition(operand, st)
    case BranchOp(k) => Branch(operand, st, k)
    case PushOp => Push(operand, st)
  }

  /** A token that is not a directive: the newest microprogram of that
      name, ignoring case, is emitted. */
  function Invocation(t: string, st: State): (r: Result<State>)
    requires |st.rom| == RomSize && st.pc <= RomSize
    ensures ByName(st.ups, t).None? ==> r == Err(CannotProcess(t))
    ensures ByName(st.ups, t).Some? ==> r == Emit(st, ByName(st.ups, t).value)
  {
    match ByName(st.ups, t)
    case None => Err(CannotProcess(t))
    case Some(op) => Emit(st, op)
  }

  /** A directive that reads no further token: STORE and LOAD write their
      fixed sequences, RETURN ends the routine, and any other token writes
      the microprogram of that name or fails naming the token. */
  function Single(d: Directive, t: string, st: State): (r: Result<State>)
    requires d == StoreOp || d == LoadOp || d == ReturnOp || d == Invoke
    requires |st.rom| == RomSize && st.pc <= RomSize
    ensures r.Ok? ==> st.pc <= r.value.pc <= RomSize && |r.value.rom| == RomSize
    ensures d == ReturnOp && r.Ok? ==> 0 < r.value.pc
    ensures d == StoreOp && r.Ok? ==> Wrote(st, r.value, StoreWords)
    ensures d == LoadOp && r.Ok? ==> Wrote(st, r.value, LoadWords)
    ensures d == ReturnOp && r.Ok? ==> EndsRoutine(r.value.rom[r.value.pc - 1])
    ensures d == Invoke && ByName(st.ups, t).None? ==> r == Err(CannotProcess(t))
    ensures d == Invoke && r.Ok? ==> r.value.pc == st.pc + 1 && r.value.rom[st.pc] == ByName(st.ups, t).value
  {
    match d
    case StoreOp => EmitAll(st, StoreWords)
    case LoadOp => EmitAll(st, LoadWords)
    case ReturnOp => Return(st)
    case Invoke => Invocation(t, st)
  }

  /** `(`: everything up to the next `)` is skipped. */
  function Comment(toks: seq<string>, st: State): (r: Result<(State, nat)>)
    ensures r.Err? <==> NextMark(toks, 1, ")").None?
    ensures r.Err? ==> r.error == UnterminatedComment
    ensures r.Ok? ==> r.value.0 == st && 1 < r.value.1 <= |toks| && toks[r.value.1 - 1] == ")"
    ensures r.Ok? ==> forall j :: 1 <= j < r.value.1 - 1 ==> toks[j] != ")"
  {
    match NextMark(toks, 1, ")")
    case None => Err(UnterminatedComment)
    case Some(e) => Ok((st, e + 1))
  }

  /** `<<`: a microprogram definition, put in front of the earlier ones. */
  function Definition(toks: seq<string>, st: State): (r: Result<(State, nat)>)
    ensures r.Ok? ==> 2 < r.value.1 <= |toks|
    ensures r.Ok? ==> ReadMicroprogram(toks, 1).Ok? && ReadMicroprogram(toks, 1).value.1 == r.value.1
    ensures r.Ok? ==> r.value.0 == st.(ups := Define(st.ups, ReadMicroprogram(toks, 1).value.0))
    ensures r.Err? ==> ReadMicroprogram(toks, 1).Err? && r.error == ReadMicroprogram(toks, 1).error
  {
    var (up, j) :- ReadMicroprogram(toks, 1);
    Ok((st.(ups := Define(st.ups, up)), j))
  }

  /** The outcome of a step that read `n` tokens. */
  function Then(r: Result<State>, n: nat): Result<(State, nat)> {
    match r
    case Ok(st) => Ok((st, n))
    case Err(e) => Err(e)
  }

  /** One pass of the loop of `assemble`, on the tokens not yet read: the
      state after it and how many tokens it read. An operand missing at
      the end of the input is the "EOF?" error. */
  function Step(toks: seq<string>, st: State): (r: Result<(State, nat)>)
    requires |toks| > 0 && Valid(st)
    ensures r.Ok? ==> 0 < r.value.1 <= |toks|
    ensures r.Ok? ==> st.pc <= r.value.0.pc && |r.value.0.rom| == RomSize
  {
    var d := Classify(toks[0]);
    if d == OpenComment then Comment(toks, st)
    else if d == OpenDefinition then Definition(toks, st)
    else if TakesOperand(d) then
      if |toks| < 2 then Err(UnexpectedEof) else Then(WithOperand(d, toks[1], st), 2)
    else Then(Single(d, toks[0], st), 1)
  }

  /** `assemble` on one file's tokens. */
  function Assemble(toks: seq<string>, st: State): (r: Result<State>)
    requires Valid(st)
    ensures r.Ok? ==> Valid(r.value) && st.pc <= r.value.pc
    decreases |toks|
  {
    if |toks| == 0 then Ok(st)
    else
      var (st', n) :- Step(toks, st);
      StepKeepsValid(toks, st);
      Assemble(toks[n..], st')
  }

  /** The files in order, each tokenized and assembled on the state the
      previous one left: labels, microprograms and PC carry over, while a
      comment, a definition or an operand cannot span two files. */
  function AssembleFiles(sources: seq<string>, st: State): (r: Result<State>)
    requires Valid(st)
    ensures r.Ok? ==> Valid(r.value) && st.pc <= r.value.pc
    decreases |sources|
  {
    if |sources| == 0 then Ok(st)
    else
      var st' :- Assemble(Tokenize(sources[0]), st);
      AssembleFiles(sources[1..], st')
  }

  // ---------------------------------------------------------------------
  // The invariant is kept

  lemma EmitKeeps(st: State, w: bv16)
    requires Valid(st) && Emit(st, w).Ok?
    ensures Valid(Emit(st, w).value)
  {
    var st' := Emit(st, w).value;
    WellFormedFrame(st.labels, st.rom, st'.rom, st.pc, st'.pc);
  }

  lemma {:induction false} EmitAllKeeps(st: State, ws: seq<bv16>)
    requires Valid(st) && EmitAll(st, ws).Ok?
    ensures Valid(EmitAll(st, ws).value)
    decreases |ws|
  {
    if |ws| > 0 {
      EmitKeeps(st, ws[0]);
      EmitAllKeeps(Emit(st, ws[0]).value, ws[1..]);
    }
  }

  lemma ReturnKeeps(st: State)
    requires Valid(st) && Return(st).Ok?
    ensures Valid(Return(st).value)
  {
    var prior := st.rom[st.pc - 1];
    var st' := Return(st).value;
    if CanFoldReturn(prior) {
      FoldableIsNotBranch(prior);
      WellFormedFrame(st.labels, st.rom, st'.rom, st.pc, st.pc);
    } else if IsCall(prior) {
      WellFormedFrame(st.labels, st.rom, st'.rom, st.pc, st.pc);
    } else {
      EmitKeeps(st, PlainReturn);
    }
  }

  lemma BranchToKeeps(name: string, st: State, k: BranchKind)
    requires Valid(st) && BranchTo(name, st, k).Ok?
    ensures Valid(BranchTo(name, st, k).value)
  {
    var st' := Emit(st, ClassOf(k)).value;
    WellFormedFrame(st.labels, st.rom, st'.rom, st.pc, st.pc);
    BareBranch(k);
    UseLabelKeeps(st'.labels, st'.rom, name, st.pc);
  }

  lemma WithOperandKeeps(d: Directive, operand: string, st: State)
    requires TakesOperand(d) && Valid(st) && WithOperand(d, operand, st).Ok?
    ensures Valid(WithOperand(d, operand, st).value)
  {
    match d
    case LabelMark =>
      WellFormedSitesIn(st.labels, st.rom, st.pc);
      SetLabelKeeps(st.labels, st.rom, operand, Word(st.pc), st.pc);
    case BranchOp(k) =>
      if operand == "." {
        EmitKeeps(st, ClassOf(k) | Word(st.pc));
      } else {
        BranchToKeeps(operand, st, k);
      }
    case PushOp => EmitAllKeeps(st, PushWords(ToU16(operand).value));
  }

  lemma SingleKeeps(d: Directive, t: string, st: State)
    requires d == StoreOp || d == LoadOp || d == ReturnOp || d == Invoke
    requires Valid(st) && Single(d, t, st).Ok?
    ensures Valid(Single(d, t, st).value)
  {
    match d
    case StoreOp => EmitAllKeeps(st, StoreWords);
    case LoadOp => EmitAllKeeps(st, LoadWords);
    case ReturnOp => ReturnKeeps(st);
    case Invoke => EmitKeeps(st, ByName(st.ups, t).value);
  }

  /** Every step keeps the label list consistent with the image. */
  lemma StepKeepsValid(toks: seq<string>, st: State)
    requires |toks| > 0 && Valid(st) && Step(toks, st).Ok?
    ensures Valid(Step(toks, st).value.0)
  {
    var d := Classify(toks[0]);
    if d == OpenComment || d == OpenDefinition {
    } else if TakesOperand(d) {
      WithOperandKeeps(d, toks[1], st);
    } else {
      SingleKeeps(d, toks[0], st);
    }
  }

  // ---------------------------------------------------------------------
  // Branches

  /** `CALL .`, `B .` and `BZ .`, spelled in any case, read two tokens and
      write a call, jump or conditional jump to the word being written:
      a branch of that kind to PC, which the disassembler reads back as
      that branch to PC's byte address. */
  lemma BranchToItself(t: string, rest: seq<string>, st: State)
    requires Valid(st) && st.pc < RomSize
    requires SameIgnoringCase(t, "CALL") || SameIgnoringCase(t, "B") || SameIgnoringCase(t, "BZ")
    ensures Step([t, "."] + rest, st).Ok?
    ensures var (st', n) := Step([t, "."] + rest, st).value;
      n == 2 && st'.pc == st.pc + 1 && BranchesTo(st'.rom[st.pc], Classify(t).kind, Word(st.pc)) &&
      Decode(st'.rom[st.pc], st.ups) ==
        if SameIgnoringCase(t, "CALL") then Call(2 * st.pc)
        else if SameIgnoringCase(t, "B") then Jump(2 * st.pc)
        else JumpZ(2 * st.pc)
  {
    BranchStepHere(t, rest, st, Classify(t).kind);
  }

  /** A branch mnemonic of kind `k` followed by `.` reads two tokens and
      writes the word of BranchHere. */
  lemma BranchStepHere(t: string, rest: seq<string>, st: State, k: BranchKind)
    requires Valid(st) && st.pc < RomSize && Classify(t) == BranchOp(k)
    ensures Step([t, "."] + rest, st) == Then(BranchHere(st, k), 2)
    ensures BranchHere(st, k).Ok?
    ensures var st' := BranchHere(st, k).value;
      st'.pc == st.pc + 1 && BranchesTo(st'.rom[st.pc], k, Word(st.pc)) &&
      Decode(st'.rom[st.pc], st.ups) == Reading(k, 2 * st.pc)
  {
    assert [t, "."] + rest == [t] + (["."] + rest);
    StepReads(t, ["."] + rest, st);
    BranchHereReadsBack(st, k);
  }

  /** The word `.` writes reads back as a branch of its kind to PC's byte
      address. */
  lemma BranchHereReadsBack(st: State, k: BranchKind)
    requires |st.rom| == RomSize && st.pc < RomSize
    ensures BranchHere(st, k).Ok?
    ensures Decode(BranchHere(st, k).value.rom[st.pc], st.ups) == Reading(k, 2 * st.pc)
  {
    WordTarget(st.pc);
    DecodeBranchesTo(BranchHere(st, k).value.rom[st.pc], k, Word(st.pc), st.ups);
  }

  /** A branch to a label not defined yet emits the bare class word and
      records its position among the label's fixups. */
  lemma BranchForward(name: string, st: State, k: BranchKind)
    requires Valid(st) && st.pc < RomSize && Undefined(st.labels, name)
    ensures BranchTo(name, st, k).Ok?
    ensures var st' := BranchTo(name, st, k).value;
      st'.rom[st.pc] == ClassOf(k) &&
      Find(st'.labels, name).Some? &&
      st'.labels[Find(st'.labels, name).value].addr.None? &&
      st.pc in st'.labels[Find(st'.labels, name).value].sites
  {
    var st1 := Emit(st, ClassOf(k)).value;
    var labels' := BranchTo(name, st, k).value.labels;
    match Find(st.labels, name)
    case None =>
      var l := Label(name, None, [st.pc]);
      assert labels' == [l] + st.labels;
      FindNewest(st.labels, l, name);
    case Some(i) =>
      var l := Label(st.labels[i].name, None, [st.pc] + st.labels[i].sites);
      assert labels' == st.labels[i := l];
      FindAfterUpdate(st.labels, i, l, name);
  }

  /** A branch to a label already defined at `a` is patched at once: the
      word is the class or-ed with `a`, the labels do not change, and an
      address beyond the target field is fatal. */
  lemma BranchBackward(name: string, st: State, k: BranchKind, a: bv16)
    requires Valid(st) && st.pc < RomSize
    requires Find(st.labels, name).Some? && st.labels[Find(st.labels, name).value].addr == Some(a)
    ensures a > MaxTarget ==> BranchTo(name, st, k) == Err(BranchTargetInvalid(a))
    ensures a <= MaxTarget ==> BranchTo(name, st, k).Ok?
    ensures a <= MaxTarget ==>
      var st' := BranchTo(name, st, k).value;
      st'.rom[st.pc] == ClassOf(k) | a && st'.labels == st.labels
  {
    if a <= MaxTarget {
      PatchBare(k, a);
    }
  }

  /** Defining a label and branching to it at once gives the same image as
      branching to `.`. */
  lemma ItselfIsLabelHere(name: string, st: State, k: BranchKind)
    requires Valid(st) && st.pc < RomSize && Undefined(st.labels, name)
    ensures LabelDefinition(name, st).Ok?
    ensures var st1 := LabelDefinition(name, st).value;
      Valid(st1) && BranchTo(name, st1, k).Ok? &&
      BranchTo(name, st1, k).value.rom == BranchHere(st1, k).value.rom
  {
    WithOperandKeeps(LabelMark, name, st);
    LabelHere(name, LabelDefinition(name, st).value, k);
  }

  /** A branch to a label defined at PC writes the word `.` would. */
  lemma LabelHere(name: string, st: State, k: BranchKind)
    requires Valid(st) && st.pc < RomSize
    requires Find(st.labels, name).Some? && st.labels[Find(st.labels, name).value].addr == Some(Word(st.pc))
    ensures BranchTo(name, st, k).Ok?
    ensures BranchTo(name, st, k).value.rom == BranchHere(st, k).value.rom
  {
    WordFits(st.pc);
    BranchBackward(name, st, k, Word(st.pc));
    var there := BranchTo(name, st, k).value.rom;
    var here := BranchHere(st, k).value.rom;
    assert there[st.pc] == here[st.pc];
    assert forall j :: 0 <= j < RomSize ==> there[j] == here[j];
  }

  // ---------------------------------------------------------------------
  // How a step reads its tokens

  /** A mnemonic that takes an operand reads the next token, and the input
      ending first is fatal; the others read one token. */
  lemma StepReads(t: string, rest: seq<string>, st: State)
    requires Valid(st)
    ensures TakesOperand(Classify(t)) && |rest| == 0 ==> Step([t] + rest, st) == Err(UnexpectedEof)
    ensures TakesOperand(Classify(t)) && |rest| > 0 ==>
      Step([t] + rest, st) == Then(WithOperand(Classify(t), rest[0], st), 2)
    ensures Classify(t) in {StoreOp, LoadOp, ReturnOp, Invoke} ==>
      Step([t] + rest, st) == Then(Single(Classify(t), t, st), 1)
  {
    var toks := [t] + rest;
    assert toks[0] == t;
    if |rest| > 0 {
      assert toks[1] == rest[0];
    }
  }

  /** Each mnemonic, spelled in any case, does its own thing: STORE and
      LOAD write their fixed sequences, RETURN ends the routine, PUSH reads
      its operand as a number, and CALL, B and BZ write a call, a jump and
      a conditional jump to their operand. */
  lemma MnemonicSteps(t: string, rest: seq<string>, st: State)
    requires Valid(st)
    ensures SameIgnoringCase(t, "STORE") ==> Step([t] + rest, st) == Then(EmitAll(st, StoreWords), 1)
    ensures SameIgnoringCase(t, "LOAD") ==> Step([t] + rest, st) == Then(EmitAll(st, LoadWords), 1)
    ensures SameIgnoringCase(t, "RETURN") ==> Step([t] + rest, st) == Then(Return(st), 1)
    ensures SameIgnoringCase(t, "PUSH") && |rest| > 0 ==> Step([t] + rest, st) == Then(Push(rest[0], st), 2)
    ensures SameIgnoringCase(t, "CALL") && |rest| > 0 ==> Step([t] + rest, st) == Then(Branch(rest[0], st, CallKind), 2)
    ensures SameIgnoringCase(t, "B") && |rest| > 0 ==> Step([t] + rest, st) == Then(Branch(rest[0], st, JumpKind), 2)
    ensures SameIgnoringCase(t, "BZ") && |rest| > 0 ==> Step([t] + rest, st) == Then(Branch(rest[0], st, JumpZKind), 2)
  {
    StepReads(t, rest, st);
  }

  /** A comment is skipped whole: assembling it and what follows is
      assembling what follows. */
  lemma CommentIsSkipped(c: seq<string>, rest: seq<string>, st: State)
    requires Valid(st)
    requires forall j :: 0 <= j < |c| ==> c[j] != ")"
    ensures Assemble(["("] + c + [")"] + rest, st) == Assemble(rest, st)
  {
    var toks := ["("] + c + [")"] + rest;
    ClosedComment(c, rest);
    StepOpensComment(toks, st);
    assert Step(toks, st) == Ok((st, |c| + 2));
  }

  lemma ClosedComment(c: seq<string>, rest: seq<string>)
    requires forall j :: 0 <= j < |c| ==> c[j] != ")"
    ensures var toks := ["("] + c + [")"] + rest;
      NextMark(toks, 1, ")") == Some(|c| + 1) && toks[|c| + 2..] == rest
  {
    var toks := ["("] + c + [")"] + rest;
    assert forall j :: 1 <= j <= |c| ==> toks[j] == c[j - 1];
    assert toks[|c| + 1] == ")";
    assert toks[|c| + 2..] == rest;
  }

  /** A comment the input ends inside is fatal. */
  lemma CommentMustClose(c: seq<string>, st: State)
    requires Valid(st)
    requires forall j :: 0 <= j < |c| ==> c[j] != ")"
    ensures Assemble(["("] + c, st) == Err(UnterminatedComment)
  {
    var toks := ["("] + c;
    UnclosedComment(c);
    StepOpensComment(toks, st);
    assert Step(toks, st) == Err(UnterminatedComment);
  }

  lemma UnclosedComment(c: seq<string>)
    requires forall j :: 0 <= j < |c| ==> c[j] != ")"
    ensures NextMark(["("] + c, 1, ")") == None
  {
    var toks := ["("] + c;
    forall j | 1 <= j < |toks|
      ensures toks[j] != ")"
    {
      assert toks[j] == c[j - 1];
    }
  }

  // ---------------------------------------------------------------------
  // RETURN read back

  /** A return folded into an ALU word other than the bare ALU class word
      reads as that word's microprogram with ", RETURN", or as a bare
      RETURN when no microprogram has the word. */
  lemma FoldedReturnReadsBack(st: State)
    requires |st.rom| == RomSize && 0 < st.pc <= RomSize
    requires CanFoldReturn(st.rom[st.pc - 1]) && st.rom[st.pc - 1] != AluClass
    ensures Return(st).Ok? && Return(st).value.pc == st.pc
    ensures var prior := st.rom[st.pc - 1];
      Decode(Return(st).value.rom[st.pc - 1], st.ups) ==
        match ByValue(st.ups, prior)
        case Some(name) => Named(name, true)
        case None => Instr.Return
  {
    DecodeFoldedReturn(st.rom[st.pc - 1], st.ups);
  }

  /** A call followed by RETURN becomes a jump to the call's target. */
  lemma TailCallReadsBack(st: State)
    requires |st.rom| == RomSize && 0 < st.pc <= RomSize
    requires IsCall(st.rom[st.pc - 1])
    ensures Return(st).Ok? && Return(st).value.pc == st.pc
    ensures Decode(Return(st).value.rom[st.pc - 1], st.ups) == Jump(ByteTarget(st.rom[st.pc - 1]))
  {
    DecodeTailCall(st.rom[st.pc - 1], st.ups);
  }

  // ---------------------------------------------------------------------
  // Microprograms

  /** A definition `<< name body >>` is read up to its `>>`, and afterwards
      the name, in any spelling, stands for the OR of the body's words. */
  lemma DefineThenInvoke(name: string, body: seq<string>, rest: seq<string>, st: State, t: string)
    requires Valid(st) && SameIgnoringCase(t, name)
    requires forall j :: 0 <= j < |body| ==> body[j] != ">>"
    requires BodyWord(body).Ok?
    ensures var toks := ["<<", name] + body + [">>"] + rest;
      Step(toks, st).Ok? && Step(toks, st).value.1 == |body| + 3 &&
      ByName(Step(toks, st).value.0.ups, t) == Some(BodyWord(body).value)
  {
    var toks := ["<<", name] + body + [">>"] + rest;
    StepOpensDefinition(toks, st);
    ReadsUpToTerminator(name, body, rest);
    NewestDefinitionWins(st.ups, Microprogram(name, BodyWord(body).value), t);
  }

  /** `<<` starts a definition. */
  lemma StepOpensDefinition(toks: seq<string>, st: State)
    requires |toks| > 0 && toks[0] == "<<" && Valid(st)
    ensures Step(toks, st) == Definition(toks, st)
  {
  }

  /** `(` starts a comment. */
  lemma StepOpensComment(toks: seq<string>, st: State)
    requires |toks| > 0 && toks[0] == "(" && Valid(st)
    ensures Step(toks, st) == Comment(toks, st)
  {
  }

  /** An outcome with the microprogram list replaced. */
  function SetUps(r: Result<State>, ups: seq<Microprogram>): Result<State> {
    match r
    case Ok(st) => Ok(st.(ups := ups))
    case Err(e) => Err(e)
  }

  function WithUps(r: Result<(State, nat)>, ups: seq<Microprogram>): Result<(State, nat)> {
    match r
    case Ok((st, n)) => Ok((st.(ups := ups), n))
    case Err(e) => Err(e)
  }

  lemma {:induction false} EmitAllIgnoresUps(st: State, ws: seq<bv16>, ups: seq<Microprogram>)
    requires |st.rom| == RomSize && st.pc <= RomSize
    ensures EmitAll(st.(ups := ups), ws) == SetUps(EmitAll(st, ws), ups)
    decreases |ws|
  {
    if |ws| > 0 && st.pc < RomSize {
      EmitAllIgnoresUps(Emit(st, ws[0]).value, ws[1..], ups);
    }
  }

  lemma BranchHereIgnoresUps(st: State, k: BranchKind, ups: seq<Microprogram>)
    requires |st.rom| == RomSize && st.pc <= RomSize
    ensures BranchHere(st.(ups := ups), k) == SetUps(BranchHere(st, k), ups)
  {
  }

  lemma BranchToIgnoresUps(name: string, st: State, k: BranchKind, ups: seq<Microprogram>)
    requires |st.rom| == RomSize && st.pc <= RomSize
    ensures BranchTo(name, st.(ups := ups), k) == SetUps(BranchTo(name, st, k), ups)
  {
  }

  lemma BranchIgnoresUps(name: string, st: State, k: BranchKind, ups: seq<Microprogram>)
    requires |st.rom| == RomSize && st.pc <= RomSize
    ensures Branch(name, st.(ups := ups), k) == SetUps(Branch(name, st, k), ups)
  {
    if name == "." {
      BranchHereIgnoresUps(st, k, ups);
    } else {
      BranchToIgnoresUps(name, st, k, ups);
    }
  }

  lemma LabelDefinitionIgnoresUps(name: string, st: State, ups: seq<Microprogram>)
    requires Valid(st)
    ensures LabelDefinition(name, st.(ups := ups)) == SetUps(LabelDefinition(name, st), ups)
  {
  }

  lemma WithOperandIgnoresUps(d: Directive, x: string, st: State, ups: seq<Microprogram>)
    requires TakesOperand(d) && Valid(st)
    ensures WithOperand(d, x, st.(ups := ups)) == SetUps(WithOperand(d, x, st), ups)
  {
    match d
    case LabelMark => LabelDefinitionIgnoresUps(x, st, ups);
    case BranchOp(k) => BranchIgnoresUps(x, st, k, ups);
    case PushOp =>
      if ToU16(x).Ok? {
        EmitAllIgnoresUps(st, PushWords(ToU16(x).value), ups);
      }
  }

  /** Mnemonics are recognized before any microprogram is looked up: what a
      mnemonic, a comment or a label does is the same whatever microprograms
      are defined, even one with the mnemonic's own name. */
  lemma MnemonicsShadowMicroprograms(toks: seq<string>, st: State, ups: seq<Microprogram>)
    requires |toks| > 0 && Valid(st)
    requires Classify(toks[0]) != Invoke && Classify(toks[0]) != OpenDefinition
    ensures Step(toks, st.(ups := ups)) == WithUps(Step(toks, st), ups)
  {
    var d := Classify(toks[0]);
    var st2 := st.(ups := ups);
    if TakesOperand(d) && |toks| >= 2 {
      WithOperandIgnoresUps(d, toks[1], st, ups);
      assert Step(toks, st) == Then(WithOperand(d, toks[1], st), 2);
      assert Step(toks, st2) == Then(WithOperand(d, toks[1], st2), 2);
    } else if d != OpenComment && !TakesOperand(d) {
      SingleIgnoresUps(d, toks[0], st, ups);
      assert Step(toks, st) == Then(Single(d, toks[0], st), 1);
      assert Step(toks, st2) == Then(Single(d, toks[0], st2), 1);
    }
  }

  lemma SingleIgnoresUps(d: Directive, t: string, st: State, ups: seq<Microprogram>)
    requires d == StoreOp || d == LoadOp || d == ReturnOp
    requires |st.rom| == RomSize && st.pc <= RomSize
    ensures Single(d, t, st.(ups := ups)) == SetUps(Single(d, t, st), ups)
  {
    match d
    case StoreOp => EmitAllIgnoresUps(st, StoreWords, ups);
    case LoadOp => EmitAllIgnoresUps(st, LoadWords, ups);
    case ReturnOp =>
  }

  // ---------------------------------------------------------------------
  // A whole run

  /** One line of the listing: the word, its byte address, the label found
      first at its position, if any, and the word's disassembly. */
  datatype Line = Line(word: bv16, addr: nat, name: Option<string>, reading: Instr)

  /** What a run produces: the image up to PC and its listing. */
  datatype Output = Output(image: seq<bv16>, listing: seq<Line>)

  /** save: one line per word emitted, in order. */
  function Listing(st: State): (ls: seq<Line>)
    requires |st.rom| == RomSize && st.pc <= RomSize
    ensures |ls| == st.pc
    ensures forall n :: 0 <= n < |ls| ==> ls[n].word == st.rom[n] && ls[n].addr == 2 * n
    ensures forall n :: 0 <= n < |ls| ==>
      (ls[n].name.None? <==> forall i :: 0 <= i < |st.labels| ==> st.labels[i].addr != Some(Word(n)))
  {
    seq(st.pc, n requires 0 <= n < st.pc =>
      Line(st.rom[n], 2 * n, GetLabel(st.labels, Word(n)), Decode(st.rom[n], st.ups)))
  }

  /** main: the files in order from an empty state; with nothing emitted
      the run ends with the usage message instead, and otherwise every
      label must be defined before the image and listing are written. */
  function Run(sources: seq<string>): (r: Result<Output>)
    ensures r.Ok? ==> AssembleFiles(sources, Start()).Ok?
    ensures r.Ok? ==> |r.value.image| == |r.value.listing| > 0
  {
    var st :- AssembleFiles(sources, Start());
    if st.pc == 0 then Err(NothingAssembled)
    else
      var _ :- CheckLabels(st.labels);
      Ok(Output(st.rom[..st.pc], Listing(st)))
  }

  /** Once the files are assembled, the run succeeds exactly when something
      was emitted and every label was defined, and then every branch that
      named a label points at the label's position. */
  lemma RunResolves(sources: seq<string>, st: State)
    requires AssembleFiles(sources, Start()) == Ok(st)
    ensures Run(sources).Ok? <==> st.pc > 0 && forall i :: 0 <= i < |st.labels| ==> st.labels[i].addr.Some?
    ensures Run(sources).Ok? ==> Run(sources).value.image == st.rom[..st.pc]
    ensures Run(sources).Ok? ==>
      forall i, k :: 0 <= i < |st.labels| && 0 <= k < |st.labels[i].sites| ==>
        st.labels[i].sites[k] < |Run(sources).value.image| &&
        IsBranch(Run(sources).value.image[st.labels[i].sites[k]]) &&
        Some(TargetField(Run(sources).value.image[st.labels[i].sites[k]])) == st.labels[i].addr
  {
    var image := st.rom[..st.pc];
    if Run(sources).Ok? {
      forall i, k | 0 <= i < |st.labels| && 0 <= k < |st.labels[i].sites|
        ensures st.labels[i].sites[k] < |image| && IsBranch(image[st.labels[i].sites[k]])
        ensures Some(TargetField(image[st.labels[i].sites[k]])) == st.labels[i].addr
      {
        assert LabelOk(st.labels[i], st.rom, st.pc);
        assert st.labels[i].addr.Some?;
      }
    }
  }
}

=== FILE: base.dfy ===
/** Shared vocabulary of the J1 assembler model: the fatal error kinds that
    abort a run, a failure-compatible Result and Option, and the ASCII
    case-insensitive comparison used for mnemonics, labels and microprogram
    names (C's strcasecmp). */
module Base {

  /** Every fatal diagnostic the assembler can raise. The message text and
      the file/line prefix are not modelled, only which error it is. */
  datatype Error =
    | NotANumber(token: string)        // to_u16 on a token that is not numeric
    | NotSixteenBit(value: int)        // to_u16 range check (never reachable)
    | CannotRedefine(name: string)     // setlabel on a resolved label
    | UndefinedLabel(name: string)     // checklabels on an unresolved label
    | BranchTargetInvalid(target: bv16) // fixup_branch with a target past 0x1FFF
    | UnterminatedComment
    | UnexpectedEof                    // "EOF?" after ':', CALL, B, BZ or PUSH
    | NothingToReturnFrom              // RETURN with nothing emitted yet
    | CannotProcess(token: string)     // unknown mnemonic
    | RomFull                          // emitting past the 8192-word image
    | NothingAssembled                 // no word emitted: usage message, exit status -1

  datatype Result<+T> = Ok(value: T) | Err(error: Error) {
    predicate IsFailure() {
      Err?
    }

    function PropagateFailure<U>(): Result<U>
      requires Err?
    {
      Err(error)
    }

    function Extract(): T
      requires Ok?
    {
      value
    }
  }

  datatype Option<+T> = None | Some(value: T)

  /** ASCII lower-casing, the only folding strcasecmp does in the C locale. */
  function ToLower(c: char): char {
    if 'A' <= c <= 'Z' then (c as int + 32) as char else c
  }

  /** strcasecmp(a, b) == 0 */
  predicate SameIgnoringCase(a: string, b: string) {
    |a| == |b| && forall i :: 0 <= i < |a| ==> ToLower(a[i]) == ToLower(b[i])
  }

  /** Index of the first element satisfying `p`: the linear scans of the
      source's singly linked lists and tables, which stop at the first hit. */
  function FirstMatch<T>(s: seq<T>, p: T -> bool): (r: Option<nat>)
    ensures r.Some? ==> r.value < |s| && p(s[r.value])
    ensures r.Some? ==> forall j :: 0 <= j < r.value ==> !p(s[j])
    ensures r.None? <==> forall j :: 0 <= j < |s| ==> !p(s[j])
  {
    if |s| == 0 then None
    else if p(s[0]) then Some(0)
    else match FirstMatch(s[1..], p)
      case None => None
      case Some(k) => Some(k + 1)
  }
}

=== FILE: disasm.dfy ===
/** The disassembler behind the listing: what one instruction word reads
    as. Branch targets are shown as byte addresses (word index times two);
    an ALU word reads as the newest microprogram with exactly that word,
    with ", RETURN" when a return was folded into it. The text layout of
    the listing is not modelled, only which reading is chosen. */
module Disassembler {
  import opened Base
  import opened Isa
  import opened Microcode

  datatype Instr =
    | Push(literal: nat)                      // "PUSH n"
    | Jump(target: nat)                       // "JUMP 0xhhhh"
    | JumpZ(target: nat)                      // "JUMPZ 0xhhhh"
    | Call(target: nat)                       // "CALL 0xhhhh"
    | Named(name: string, withReturn: bool)   // a microprogram's name
    | Return                                  // "RETURN"
    | Unknown                                 // "???"

  /** disassemble: bit 15 gives a literal, the class bits a branch, and an
      ALU word is looked up among the microprograms by value, newest first,
      after taking out a folded return. */
  function Decode(op: bv16, ups: seq<Microprogram>): (r: Instr)
    ensures r.Push? <==> op & PushBit != 0
    ensures r.Jump? || r.JumpZ? || r.Call? <==> IsBranch(op)
    ensures r.Named? || r.Return? || r.Unknown? <==> op & PushBit == 0 && op & ClassMask == AluClass
    ensures r.Return? ==> HasFoldedReturn(op) && ByValue(ups, WithoutReturn(op)).None?
    ensures r.Named? ==> r.withReturn == HasFoldedReturn(op)
    ensures r.Unknown? <==> op & PushBit == 0 && op & ClassMask == AluClass && !HasFoldedReturn(op) && ByValue(ups, op).None?
  {
    if op & PushBit != 0 then Push((op & LiteralMask) as int)
    else if op & ClassMask == JumpClass then Jump(ByteTarget(op))
    else if op & ClassMask == JumpZClass then JumpZ(ByteTarget(op))
    else if op & ClassMask == CallClass then Call(ByteTarget(op))
    else
      var folded := HasFoldedReturn(op);
      var look := if folded then WithoutReturn(op) else op;
      match ByValue(ups, look)
      case Some(name) => Named(name, folded)
      case None => if folded then Return else Unknown
  }

  // ---------------------------------------------------------------------
  // What the emitter writes reads back as what was written

  /** For a value with bit 15 clear, PUSH writes one literal, which reads
      back as the value. */
  lemma DecodeLiteral(n: bv16, ups: seq<Microprogram>)
    requires n & PushBit == 0
    ensures PushWords(n) == [PushBit | n]
    ensures Decode(PushBit | n, ups) == Push(n as int)
  {
    assert (PushBit | n) & LiteralMask == n;
  }

  /** For a value with bit 15 set, PUSH writes the literal of its
      complement and then ~T: the literal reads back as the complement,
      and complementing it again gives the value. */
  lemma DecodeComplementPush(n: bv16, ups: seq<Microprogram>)
    requires n & PushBit != 0
    ensures Decode(PushWords(n)[0], ups) == Push((!n) as int)
    ensures !(PushWords(n)[0] & LiteralMask) == n
    ensures PushWords(n)[1] == InvertTop
  {
    assert (PushBit | !n) & LiteralMask == !n;
  }

  /** A branch word reads as a branch of its class to its byte target. */
  lemma DecodeBranchWord(w: bv16, ups: seq<Microprogram>)
    requires w & PushBit == 0
    ensures w & ClassMask == JumpClass ==> Decode(w, ups) == Jump(ByteTarget(w))
    ensures w & ClassMask == JumpZClass ==> Decode(w, ups) == JumpZ(ByteTarget(w))
    ensures w & ClassMask == CallClass ==> Decode(w, ups) == Call(ByteTarget(w))
  {
  }

  /** How a branch of kind `k` to byte address `target` reads. */
  function Reading(k: BranchKind, target: nat): Instr {
    match k
    case JumpKind => Jump(target)
    case JumpZKind => JumpZ(target)
    case CallKind => Call(target)
  }

  /** Any branch of kind `k` to word `t` reads back as that kind of branch
      to the byte address twice the reading of `t`. */
  lemma DecodeBranchesTo(w: bv16, k: BranchKind, t: bv16, ups: seq<Microprogram>)
    requires BranchesTo(w, k, t)
    ensures Decode(w, ups) == Reading(k, 2 * BitsValue(t, TargetBits))
  {
    DecodeBranchWord(w, ups);
  }

  /** A branch of any kind to word `target` reads back as that kind of
      branch to byte address 2 * target. */
  lemma DecodeBranch(k: BranchKind, target: bv16, ups: seq<Microprogram>)
    requires target <= MaxTarget
    ensures Decode(ClassOf(k) | target, ups) == Reading(k, 2 * BitsValue(target, TargetBits))
  {
    match k
    case JumpKind => DecodeJump(target, ups);
    case JumpZKind => DecodeJumpZ(target, ups);
    case CallKind => DecodeCall(target, ups);
  }

  lemma DecodeJump(target: bv16, ups: seq<Microprogram>)
    requires target <= MaxTarget
    ensures Decode(JumpClass | target, ups) == Jump(2 * BitsValue(target, TargetBits))
  {
    BranchWordBits(JumpKind, target);
    DecodeBranchWord(JumpClass | target, ups);
  }

  lemma DecodeJumpZ(target: bv16, ups: seq<Microprogram>)
    requires target <= MaxTarget
    ensures Decode(JumpZClass | target, ups) == JumpZ(2 * BitsValue(target, TargetBits))
  {
    BranchWordBits(JumpZKind, target);
    DecodeBranchWord(JumpZClass | target, ups);
  }

  lemma DecodeCall(target: bv16, ups: seq<Microprogram>)
    requires target <= MaxTarget
    ensures Decode(CallClass | target, ups) == Call(2 * BitsValue(target, TargetBits))
  {
    BranchWordBits(CallKind, target);
    DecodeBranchWord(CallClass | target, ups);
  }

  /** After RETURN turns a call into a jump, the word reads as a jump to
      the call's target. */
  lemma DecodeTailCall(w: bv16, ups: seq<Microprogram>)
    requires IsCall(w)
    ensures Decode(TailCall(w), ups) == Jump(ByteTarget(w))
  {
  }

  /** A return folded into an ALU word that names a microprogram reads as
      that microprogram followed by RETURN (or as a bare RETURN when no
      microprogram has the word), except when the ALU word was the bare
      ALU class word: the result is then the plain return word, which
      reads as itself. */
  lemma DecodeFoldedReturn(w: bv16, ups: seq<Microprogram>)
    requires CanFoldReturn(w)
    ensures w != AluClass && ByValue(ups, w).Some? ==> Decode(w | ReturnBits, ups) == Named(ByValue(ups, w).value, true)
    ensures w != AluClass && ByValue(ups, w).None? ==> Decode(w | ReturnBits, ups) == Return
    ensures w == AluClass ==> Decode(w | ReturnBits, ups) == Decode(PlainReturn, ups)
  {
    FoldedBits(w);
  }

  /** The plain return word is never read as a return: it is a
      microprogram's name if one has exactly that word, otherwise
      unknown. */
  lemma DecodePlainReturn(ups: seq<Microprogram>)
    ensures Decode(PlainReturn, ups) ==
      match ByValue(ups, PlainReturn)
      case Some(name) => Named(name, false)
      case None => Unknown
  {
  }

  /** How an ALU word without a folded return reads: the newest
      microprogram with exactly that word, or "???". */
  function ReadingByValue(w: bv16, ups: seq<Microprogram>): Instr {
    match ByValue(ups, w)
    case Some(name) => Named(name, false)
    case None => Unknown
  }

  /** Every ALU word without a folded return reads through the lookup by
      value, and no other way. */
  lemma DecodeAluWord(w: bv16, ups: seq<Microprogram>)
    requires w & PushBit == 0 && w & ClassMask == AluClass && !HasFoldedReturn(w)
    ensures Decode(w, ups) == ReadingByValue(w, ups)
  {
  }

  /** The words STORE writes carry no return, so each reads as a
      microprogram defined to exactly that word, or as "???". */
  lemma DecodeStoreWords(ups: seq<Microprogram>)
    ensures forall k :: 0 <= k < |StoreWords| ==> Decode(StoreWords[k], ups) == ReadingByValue(StoreWords[k], ups)
  {
    DecodeAluWord(0x6123, ups);
    DecodeAluWord(0x6103, ups);
  }

  /** Likewise the words LOAD writes. */
  lemma DecodeLoadWords(ups: seq<Microprogram>)
    ensures forall k :: 0 <= k < |LoadWords| ==> Decode(LoadWords[k], ups) == ReadingByValue(LoadWords[k], ups)
  {
    DecodeAluWord(0x6000, ups);
    DecodeAluWord(0x6C00, ups);
  }

  /** An ALU word without return bits that a microprogram was defined to
      reads as the newest microprogram with that word. */
  lemma DecodeMicroprogram(ups: seq<Microprogram>, up: Microprogram)
    requires CanFoldReturn(up.op)
    ensures Decode(up.op, Define(ups, up)) == Named(up.name, false)
  {
    var r := Define(ups, up);
    assert r[0] == up;
    assert !HasFoldedReturn(up.op);
  }
}

=== FILE: isa.dfy ===
/** The J1 instruction word, bit-exact. Bit 15 set: literal push of bits
    14..0. Otherwise bits 15..13 give the class (000 jump, 001 jump if zero,
    010 call, 011 ALU) and, for branches, bits 12..0 the target word
    index. This module holds the constants and the word builders the
    emitter uses and the disassembler inverts. */
module Isa {

  /** Words in the program image (rom[8192]). */
  const RomSize: nat := 8192
  /** Largest branch target the 13-bit field can hold. */
  const MaxTarget: bv16 := 0x1FFF

  /** A count as the 16-bit value it wraps to: what the source's unsigned PC
      becomes when it is or-ed into a word or stored as a label's address. */
  function Word(n: nat): bv16 {
    Low(n, WordBits)
  }

  /** Bits in a word. */
  const WordBits: nat := 16

  /** The low `width` bits of `n`, built one bit at a time from the least
      significant, which keeps the verifier away from converting between
      integers and bit-vectors. */
  function Low(n: nat, width: nat): bv16
    decreases width
  {
    if width == 0 then 0 else (Low(n / 2, width - 1) << 1) | (if n % 2 == 1 then 1 else 0)
  }

  function Pow2(j: nat): nat {
    if j == 0 then 1 else 2 * Pow2(j - 1)
  }

  /** The low `j` bits set. */
  function Mask(j: nat): bv16 {
    if j == 0 then 0 else (Mask(j - 1) << 1) | 1
  }

  lemma {:induction false} LowOfZero(width: nat)
    ensures Low(0, width) == 0
  {
    if width > 0 {
      LowOfZero(width - 1);
    }
  }

  lemma ShiftInBit(x: bv16, m: bv16, b: bv16)
    requires x & !m == 0 && b <= 1
    ensures ((x << 1) | b) & !((m << 1) | 1) == 0
  {
  }

  /** A number below 2^j has no bit set above the low `j`. */
  lemma {:induction false} LowBelow(n: nat, j: nat, width: nat)
    requires n < Pow2(j)
    ensures Low(n, width) & !Mask(j) == 0
    decreases width
  {
    if j == 0 {
      LowOfZero(width);
    } else if width > 0 {
      LowBelow(n / 2, j - 1, width - 1);
      ShiftInBit(Low(n / 2, width - 1), Mask(j - 1), if n % 2 == 1 then 1 else 0);
    }
  }

  /** A position inside the image fits the target field. */
  lemma WordFits(n: nat)
    requires n < RomSize
    ensures Word(n) & ClassMask == 0 && Word(n) <= MaxTarget
  {
    assert Pow2(13) == RomSize;
    assert Mask(13) == MaxTarget;
    LowBelow(n, 13, WordBits);
  }

  /** The binary reading of the low `width` bits of `w`, least significant
      bit first: the reference Word is checked against. */
  function BitsValue(w: bv16, width: nat): nat
    decreases width
  {
    if width == 0 then 0 else 2 * BitsValue(w >> 1, width - 1) + (if w & 1 == 1 then 1 else 0)
  }

  /** A count inside the 16-bit range reads back from its word: Word keeps
      every bit of it. */
  lemma WordValue(n: nat)
    requires n < 0x1_0000
    ensures BitsValue(Word(n), WordBits) == n
  {
    assert Pow2(13) == RomSize;
    assert Pow2(16) == 0x1_0000;
    LowValue(n, WordBits, WordBits);
  }

  /** A position inside the image is the reading of the 13-bit target
      field of its word. */
  lemma WordTarget(n: nat)
    requires n < RomSize
    ensures BitsValue(Word(n), TargetBits) == n
  {
    assert Pow2(13) == RomSize;
    LowValue(n, WordBits, TargetBits);
  }

  /** Distinct positions of the image, or any distinct counts below 2^16,
      give distinct words. */
  lemma WordInjective(n: nat, m: nat)
    requires n < 0x1_0000 && m < 0x1_0000
    ensures Word(n) == Word(m) <==> n == m
  {
    WordValue(n);
    WordValue(m);
  }

  /** The low `j` bits of a `width`-bit Low read back as the count, when
      the count fits in `j` bits. */
  lemma {:induction false} LowValue(n: nat, width: nat, j: nat)
    requires j <= width <= 16 && n < Pow2(j)
    ensures BitsValue(Low(n, width), j) == n
    decreases j
  {
    if j > 0 {
      LowStep(n, width, j);
      LowValue(n / 2, width - 1, j - 1);
    }
  }

  /** One bit of Low read back: the reading doubles that of the higher bits
      and adds the lowest. */
  lemma LowStep(n: nat, width: nat, j: nat)
    requires 0 < j <= width <= 16 && n < Pow2(j)
    ensures n / 2 < Pow2(j - 1)
    ensures BitsValue(Low(n, width), j) == 2 * BitsValue(Low(n / 2, width - 1), j - 1) + n % 2
  {
    HigherBitsClear(n, width, j);
    LowUnfold(n, width);
    ValueOfShiftIn(n, j, Low(n / 2, width - 1), Low(n, width));
  }

  lemma LowUnfold(n: nat, width: nat)
    requires 0 < width
    ensures Low(n, width) == (Low(n / 2, width - 1) << 1) | (if n % 2 == 1 then 1 else 0)
  {
  }

  lemma HigherBitsClear(n: nat, width: nat, j: nat)
    requires 0 < j <= width <= 16 && n < Pow2(j)
    ensures n / 2 < Pow2(j - 1)
    ensures Low(n / 2, width - 1) & PushBit == 0
  {
    Pow2Mono(j - 1, width - 1);
    LowTopClear(n / 2, width - 1);
  }

  lemma {:induction false} Pow2Mono(i: nat, j: nat)
    requires i <= j
    ensures Pow2(i) <= Pow2(j)
    decreases j
  {
    if i < j {
      Pow2Mono(i, j - 1);
    }
  }

  lemma Doubled(x: nat)
    ensures (2 * x) % 2 == 0
  {
  }

  lemma TargetReadingBelow(w: bv16)
    ensures BitsValue(w, TargetBits) < RomSize
  {
    BitsValueBelow(w, TargetBits);
    assert Pow2(13) == RomSize;
  }

  /** The reading of `width` bits is below 2^width. */
  lemma {:induction false} BitsValueBelow(w: bv16, width: nat)
    ensures BitsValue(w, width) < Pow2(width)
  {
    if width > 0 {
      BitsValueBelow(w >> 1, width - 1);
    }
  }

  lemma ValueOfShiftIn(n: nat, width: nat, x: bv16, w: bv16)
    requires 0 < width && x & PushBit == 0 && w == (x << 1) | (if n % 2 == 1 then 1 else 0)
    ensures BitsValue(w, width) == 2 * BitsValue(x, width - 1) + n % 2
  {
    ShiftBack(x, if n % 2 == 1 then 1 else 0);
  }

  lemma ShiftBack(x: bv16, b: bv16)
    requires x & PushBit == 0 && b <= 1
    ensures ((x << 1) | b) >> 1 == x && ((x << 1) | b) & 1 == b
  {
  }

  /** Fewer than 16 low bits leave bit 15 clear. */
  lemma LowTopClear(n: nat, width: nat)
    requires width <= 15 && n < Pow2(width)
    ensures Low(n, width) & PushBit == 0
  {
    LowBelow(n, width, width);
    MaskBelowTop(width);
    MaskFifteen();
    SubsetTrans(Low(n, width), Mask(width), Mask(15));
  }

  lemma SubsetTrans(a: bv16, b: bv16, c: bv16)
    requires a & !b == 0 && b & !c == 0
    ensures a & !c == 0
  {
  }

  lemma {:induction false} MaskGrows(j: nat)
    ensures Mask(j) & !Mask(j + 1) == 0
  {
    if j > 0 {
      MaskGrows(j - 1);
      ShiftInBit(Mask(j - 1), Mask(j), 1);
    }
  }

  lemma {:induction false} MaskBelowTop(k: nat)
    requires k <= 15
    ensures Mask(k) & !Mask(15) == 0
    decreases 15 - k
  {
    if k < 15 {
      MaskGrows(k);
      MaskBelowTop(k + 1);
      SubsetTrans(Mask(k), Mask(k + 1), Mask(15));
    }
  }

  lemma MaskFifteen()
    ensures Mask(15) == 0x7FFF
  {
    assert Mask(4) == 0xF;
    assert Mask(8) == 0xFF;
    assert Mask(12) == 0xFFF;
  }

  const PushBit: bv16 := 0x8000
  const LiteralMask: bv16 := 0x7FFF
  const ClassMask: bv16 := 0xE000
  const TargetMask: bv16 := 0x1FFF
  /** Width of the target field. */
  const TargetBits: nat := 13

  const JumpClass: bv16 := 0x0000
  const JumpZClass: bv16 := 0x2000
  const CallClass: bv16 := 0x4000
  const AluClass: bv16 := 0x6000

  /** R->PC together with R-: return and pop the return stack. */
  const ReturnBits: bv16 := 0x100C
  /** ALU class bits, R->PC, T->R and the return-stack delta: a word is a
      candidate for folding a return in when, under this mask, it reads as
      a bare ALU word. */
  const FoldMask: bv16 := 0xF04C
  /** R->PC, T->R and the return-stack delta: the disassembler's test for an
      embedded return. */
  const ReturnTestMask: bv16 := 0x104C
  /** The word RETURN emits when it cannot fold: ALU T R->PC R-. */
  const PlainReturn: bv16 := 0x700C
  /** ALU ~T: complements the top of the data stack. */
  const InvertTop: bv16 := 0x6600

  /** STORE: ALU N D- N->[T], then ALU N D-. */
  const StoreWords: seq<bv16> := [0x6123, 0x6103]
  /** LOAD: ALU T, then ALU [T]. */
  const LoadWords: seq<bv16> := [0x6000, 0x6C00]

  datatype BranchKind = JumpKind | JumpZKind | CallKind

  function ClassOf(k: BranchKind): bv16 {
    match k
    case JumpKind => JumpClass
    case JumpZKind => JumpZClass
    case CallKind => CallClass
  }

  /** A jump, conditional jump or call: top three bits 000, 001 or 010. */
  predicate IsBranch(w: bv16) {
    w & PushBit == 0 && w & ClassMask != AluClass
  }

  function TargetField(w: bv16): bv16 {
    w & TargetMask
  }

  /** fixup_branch's rewrite: keep the class bits, replace the target. */
  function Patch(w: bv16, target: bv16): (r: bv16)
    requires target <= MaxTarget
    ensures r & ClassMask == w & ClassMask
    ensures TargetField(r) == target
  {
    (w & ClassMask) | (target & TargetMask)
  }

  /** Words PUSH emits for a 16-bit value: a literal when bit 15 is clear,
      else the literal of the complement followed by ALU ~T. */
  function PushWords(n: bv16): (ws: seq<bv16>)
    ensures 1 <= |ws| <= 2
    ensures ws[0] & PushBit == PushBit
    ensures |ws| == 1 <==> n & PushBit == 0
  {
    if n & PushBit != 0 then [PushBit | !n, InvertTop] else [PushBit | n]
  }

  /** RETURN's first peephole: an ALU word that leaves R->PC, T->R and the
      return stack alone. */
  predicate CanFoldReturn(w: bv16) {
    w & FoldMask == AluClass
  }

  predicate IsCall(w: bv16) {
    w & ClassMask == CallClass
  }

  /** RETURN's second peephole: a call followed by a return is a jump. */
  function TailCall(w: bv16): (r: bv16)
    requires IsCall(w)
    ensures r & ClassMask == JumpClass && IsBranch(r)
    ensures TargetField(r) == TargetField(w)
  {
    w & !CallClass
  }

  /** A word RETURN can fold into is an ALU word, never a branch. */
  lemma FoldableIsNotBranch(w: bv16)
    requires CanFoldReturn(w)
    ensures !IsBranch(w) && w & PushBit == 0 && w & ClassMask == AluClass
  {
  }

  /** The word a branch to a label is emitted as before the label is
      resolved: the class alone, target 0. */
  lemma BareBranch(k: BranchKind)
    ensures IsBranch(ClassOf(k)) && TargetField(ClassOf(k)) == 0
    ensures ClassOf(k) & ClassMask == ClassOf(k)
  {
  }

  /** `w` is a branch of kind `k`, whatever its target. */
  predicate BranchOfKind(w: bv16, k: BranchKind) {
    IsBranch(w) && w & ClassMask == ClassOf(k)
  }

  /** `w` is a branch of kind `k` to word `t`. */
  predicate BranchesTo(w: bv16, k: BranchKind, t: bv16) {
    BranchOfKind(w, k) && TargetField(w) == t
  }

  lemma BranchWord(k: BranchKind, t: bv16)
    requires t <= MaxTarget
    ensures BranchesTo(ClassOf(k) | t, k, t)
  {
    BranchWordBits(k, t);
  }

  /** The word a branch to position `n` of the image is emitted as, with
      `t` the position as a word: a branch of its kind to `t`, which fits
      the target field. */
  lemma BranchToPosition(k: BranchKind, n: nat, t: bv16)
    requires n < RomSize && t == Word(n)
    ensures t <= MaxTarget
    ensures BranchesTo(ClassOf(k) | t, k, t)
  {
    WordFits(n);
    BranchWord(k, t);
  }

  /** The branch of kind `k` to position `n` of the image. */
  function BranchAt(k: BranchKind, n: nat): (w: bv16)
    ensures w == ClassOf(k) | Word(n)
    ensures n < RomSize ==> BranchesTo(w, k, Word(n))
  {
    if n < RomSize then BranchToPosition(k, n, Word(n)); ClassOf(k) | Word(n)
    else ClassOf(k) | Word(n)
  }

  /** Patching the bare class word gives the class or-ed with the target:
      resolving a label now or later writes the same word. */
  lemma PatchBare(k: BranchKind, target: bv16)
    requires target <= MaxTarget
    ensures Patch(ClassOf(k), target) == ClassOf(k) | target
  {
  }

  // ---------------------------------------------------------------------
  // Reading words back

  /** The byte address a branch word points to: twice the reading of its
      13-bit target field. */
  function ByteTarget(op: bv16): (t: nat)
    ensures t % 2 == 0 && t < 2 * RomSize
  {
    TargetReadingBelow(TargetField(op));
    Doubled(BitsValue(TargetField(op), TargetBits));
    2 * BitsValue(TargetField(op), TargetBits)
  }

  /** The word an ALU word reads as once an embedded return is taken out. */
  function WithoutReturn(op: bv16): bv16 {
    op & !ReturnTestMask
  }

  /** An ALU word carrying a folded return: R->PC and R- set, T->R clear,
      and not the plain return word itself. */
  predicate HasFoldedReturn(op: bv16) {
    op & ReturnTestMask == ReturnBits && op != PlainReturn
  }

  /** A branch word built from a class and a target in range has that
      class and that target. */
  lemma BranchWordBits(k: BranchKind, t: bv16)
    requires t <= MaxTarget
    ensures (ClassOf(k) | t) & PushBit == 0
    ensures (ClassOf(k) | t) & ClassMask == ClassOf(k)
    ensures TargetField(ClassOf(k) | t) == t
  {
  }

  lemma FoldedBits(w: bv16)
    requires CanFoldReturn(w)
    ensures (w | ReturnBits) & ReturnTestMask == ReturnBits
    ensures (w | ReturnBits) & PushBit == 0 && (w | ReturnBits) & ClassMask == AluClass
    ensures WithoutReturn(w | ReturnBits) == w
    ensures w | ReturnBits == PlainReturn <==> w == AluClass
  {
  }
}

=== FILE: labels.dfy ===
/** Labels and fixups: the label list (newest first, as the source prepends
    to its linked list), each label with its address once defined and the
    positions of the branches that refer to it. A reference to an undefined
    label records a fixup; defining the label patches every recorded
    branch. Fixups are never removed, even once patched. */
module Labels {
  import opened Base
  import opened Isa

  /** A program image: one word per position, RomSize of them. */
  type Rom = seq<bv16>

  /** `addr` is None while the label is only referred to (the source's
      0xFFFF); `sites` are the fixup positions, newest first. */
  datatype Label = Label(name: string, addr: Option<bv16>, sites: seq<nat>)

  /** fixup_branch: point the branch at `site` to word `target`, keeping its
      class bits; a target that does not fit the 13-bit field is fatal. */
  function FixupBranch(rom: Rom, site: nat, target: bv16): (r: Result<Rom>)
    requires site < |rom|
    ensures r.Err? <==> target > MaxTarget
    ensures r.Err? ==> r.error == BranchTargetInvalid(target)
    ensures r.Ok? ==> |r.value| == |rom|
    ensures r.Ok? ==> r.value[site] & ClassMask == rom[site] & ClassMask
    ensures r.Ok? ==> TargetField(r.value[site]) == target
    ensures r.Ok? ==> forall k :: 0 <= k < |rom| && k != site ==> r.value[k] == rom[k]
  {
    if target > MaxTarget then Err(BranchTargetInvalid(target))
    else Ok(rom[site := Patch(rom[site], target)])
  }

  predicate SitesIn(sites: seq<nat>, size: nat) {
    forall k :: 0 <= k < |sites| ==> sites[k] < size
  }

  /** The fixup loop of setlabel: patch every recorded site, newest first. */
  function PatchAll(rom: Rom, sites: seq<nat>, target: bv16): (r: Result<Rom>)
    requires SitesIn(sites, |rom|)
    ensures r.Err? <==> |sites| > 0 && target > MaxTarget
    ensures r.Err? ==> r.error == BranchTargetInvalid(target)
    ensures r.Ok? ==> |r.value| == |rom|
    ensures r.Ok? ==> forall s :: s in sites ==> r.value[s] == Patch(rom[s], target)
    ensures r.Ok? ==> forall k :: 0 <= k < |rom| && k !in sites ==> r.value[k] == rom[k]
    decreases |sites|
  {
    if |sites| == 0 then Ok(rom)
    else
      var rom1 :- FixupBranch(rom, sites[0], target);
      assert SitesIn(sites[1..], |rom1|);
      var r := PatchAll(rom1, sites[1..], target);
      assert forall s :: s in sites ==> s == sites[0] || s in sites[1..];
      PatchTwice(rom[sites[0]], target);
      r
  }

  /** Patching is idempotent: a site listed twice ends up the same. */
  lemma PatchTwice(w: bv16, target: bv16)
    requires target <= MaxTarget
    ensures Patch(Patch(w, target), target) == Patch(w, target)
  {
  }

  /** Position of the label named `name`, ignoring case. */
  function Find(labels: seq<Label>, name: string): (r: Option<nat>)
    ensures r.Some? ==> r.value < |labels| && SameIgnoringCase(labels[r.value].name, name)
    ensures r.Some? ==> forall j :: 0 <= j < r.value ==> !SameIgnoringCase(labels[j].name, name)
    ensures r.None? <==> forall j :: 0 <= j < |labels| ==> !SameIgnoringCase(labels[j].name, name)
  {
    FirstMatch(labels, (l: Label) => SameIgnoringCase(l.name, name))
  }

  /** setlabel: define `name` at `pc`. A label defined before is fatal; one
      only referred to so far gets its address and all its recorded
      branches patched (its fixups stay recorded); an unknown name becomes
      a new defined label at the head of the list. */
  function SetLabel(labels: seq<Label>, rom: Rom, name: string, pc: bv16): (r: Result<(seq<Label>, Rom)>)
    requires forall l :: l in labels ==> SitesIn(l.sites, |rom|)
    ensures Find(labels, name).Some? && labels[Find(labels, name).value].addr.Some? ==> r == Err(CannotRedefine(name))
    ensures Find(labels, name).None? ==> r == Ok(([Label(name, Some(pc), [])] + labels, rom))
    ensures r.Ok? && Find(labels, name).Some? ==>
      var i := Find(labels, name).value;
      labels[i].addr.None? &&
      r.value.0 == labels[i := Label(labels[i].name, Some(pc), labels[i].sites)] &&
      PatchAll(rom, labels[i].sites, pc) == Ok(r.value.1)
    ensures Find(labels, name).Some? && labels[Find(labels, name).value].addr.None? ==>
      var i := Find(labels, name).value;
      match PatchAll(rom, labels[i].sites, pc)
      case Ok(rom') => r == Ok((labels[i := Label(labels[i].name, Some(pc), labels[i].sites)], rom'))
      case Err(e) => r == Err(e)
    ensures r.Err? ==> r.error == CannotRedefine(name) || r.error == BranchTargetInvalid(pc)
  {
    match Find(labels, name)
    case None => Ok(([Label(name, Some(pc), [])] + labels, rom))
    case Some(i) =>
      if labels[i].addr.Some? then Err(CannotRedefine(name))
      else
        assert labels[i] in labels;
        var rom' :- PatchAll(rom, labels[i].sites, pc);
        Ok((labels[i := labels[i].(addr := Some(pc))], rom'))
  }

  /** uselabel: the branch at `site` refers to `name`. A defined label is
      patched in at once; otherwise the site is recorded as a fixup, on a
      new undefined label at the head of the list if the name is new. */
  function UseLabel(labels: seq<Label>, rom: Rom, name: string, site: nat): (r: Result<(seq<Label>, Rom)>)
    requires site < |rom|
    ensures Find(labels, name).None? ==> r == Ok(([Label(name, None, [site])] + labels, rom))
    ensures Find(labels, name).Some? && labels[Find(labels, name).value].addr.None? ==>
      var i := Find(labels, name).value;
      r == Ok((labels[i := Label(labels[i].name, None, [site] + labels[i].sites)], rom))
    ensures Find(labels, name).Some? && labels[Find(labels, name).value].addr.Some? ==>
      var i := Find(labels, name).value;
      match FixupBranch(rom, site, labels[i].addr.value)
      case Ok(rom') => r == Ok((labels, rom'))
      case Err(e) => r == Err(e)
  {
    match Find(labels, name)
    case None => Ok(([Label(name, None, [site])] + labels, rom))
    case Some(i) =>
      match labels[i].addr
      case Some(a) =>
        var rom' :- FixupBranch(rom, site, a);
        Ok((labels, rom'))
      case None => Ok((labels[i := labels[i].(sites := [site] + labels[i].sites)], rom))
  }

  /** checklabels: fails, naming the first (newest) label still undefined,
      exactly when some label is undefined. */
  function CheckLabels(labels: seq<Label>): (r: Result<()>)
    ensures r.Ok? <==> forall i :: 0 <= i < |labels| ==> labels[i].addr.Some?
    ensures r.Err? ==> exists i :: 0 <= i < |labels| && labels[i].addr.None?
                                 && r.error == UndefinedLabel(labels[i].name)
                                 && forall j :: 0 <= j < i ==> labels[j].addr.Some?
  {
    match FirstMatch(labels, (l: Label) => l.addr.None?)
    case None => Ok(())
    case Some(i) => Err(UndefinedLabel(labels[i].name))
  }

  /** getlabel: the name of the first (newest) label defined at `pc`. */
  function GetLabel(labels: seq<Label>, pc: bv16): (r: Option<string>)
    ensures r.None? <==> forall i :: 0 <= i < |labels| ==> labels[i].addr != Some(pc)
    ensures r.Some? ==> exists i :: 0 <= i < |labels| && labels[i].addr == Some(pc) && labels[i].name == r.value
                                 && forall j :: 0 <= j < i ==> labels[j].addr != Some(pc)
  {
    match FirstMatch(labels, (l: Label) => l.addr == Some(pc))
    case None => None
    case Some(i) => Some(labels[i].name)
  }

  // ---------------------------------------------------------------------
  // Name matching

  lemma SameIgnoringCaseSymmetric(a: string, b: string)
    ensures SameIgnoringCase(a, b) <==> SameIgnoringCase(b, a)
  {
  }

  lemma SameIgnoringCaseTransitive(a: string, b: string, c: string)
    requires SameIgnoringCase(a, b) && SameIgnoringCase(b, c)
    ensures SameIgnoringCase(a, c)
  {
  }

  /** Replacing a label by one of the same name leaves every lookup as it
      was. */
  lemma FindAfterUpdate(labels: seq<Label>, i: nat, l: Label, name: string)
    requires i < |labels| && l.name == labels[i].name
    ensures Find(labels[i := l], name) == Find(labels, name)
  {
    assert forall j :: 0 <= j < |labels| ==> labels[i := l][j].name == labels[j].name;
  }

  /** A label just put at the head of the list is the one found. */
  lemma FindNewest(labels: seq<Label>, l: Label, name: string)
    requires SameIgnoringCase(l.name, name)
    ensures Find([l] + labels, name) == Some(0)
  {
  }

  /** After uselabel the name is known, and the branch at `site` either
      points at the label's address, keeping its class bits, or is one of
      the label's recorded fixups with the image untouched. */
  lemma UseLabelRecords(labels: seq<Label>, rom: Rom, name: string, site: nat)
    requires site < |rom| && UseLabel(labels, rom, name, site).Ok?
    ensures var (labels', rom') := UseLabel(labels, rom, name, site).value;
      Find(labels', name).Some? &&
      match labels'[Find(labels', name).value].addr
      case Some(a) =>
        |rom'| == |rom| && TargetField(rom'[site]) == a && rom'[site] & ClassMask == rom[site] & ClassMask
      case None => rom' == rom && site in labels'[Find(labels', name).value].sites
  {
    match Find(labels, name)
    case None =>
      FindNewest(labels, Label(name, None, [site]), name);
    case Some(i) =>
      if labels[i].addr.None? {
        FindAfterUpdate(labels, i, Label(labels[i].name, None, [site] + labels[i].sites), name);
      }
  }

  // ---------------------------------------------------------------------
  // Order of definition and reference does not matter

  /** A label that may still be defined: unknown, or only referred to. */
  predicate Undefined(labels: seq<Label>, name: string) {
    match Find(labels, name)
    case None => true
    case Some(i) => labels[i].addr.None?
  }

  predicate AllSitesIn(labels: seq<Label>, size: nat) {
    forall l :: l in labels ==> SitesIn(l.sites, size)
  }

  /** A label set successfully is found afterwards under any spelling of
      its name, with the address it was given. */
  lemma SetLabelDefines(labels: seq<Label>, rom: Rom, name: string, pc: bv16)
    requires AllSitesIn(labels, |rom|)
    requires SetLabel(labels, rom, name, pc).Ok?
    ensures var labels1 := SetLabel(labels, rom, name, pc).value.0;
      Find(labels1, name).Some? && labels1[Find(labels1, name).value].addr == Some(pc)
  {
    var labels1 := SetLabel(labels, rom, name, pc).value.0;
    match Find(labels, name)
    case None =>
      var l := Label(name, Some(pc), []);
      assert labels1 == [l] + labels;
      FindNewest(labels, l, name);
    case Some(i) =>
      var l := Label(labels[i].name, Some(pc), labels[i].sites);
      assert labels1 == labels[i := l];
      FindAfterUpdate(labels, i, l, name);
  }

  /** Referring to a label that may still be defined, then defining it at
      `target`, patches the branch along with every earlier reference. */
  lemma ReferenceThenDefinition(labels: seq<Label>, rom: Rom, name: string, site: nat, target: bv16)
    requires site < |rom| && target <= MaxTarget
    requires AllSitesIn(labels, |rom|)
    requires Undefined(labels, name)
    ensures UseLabel(labels, rom, name, site).Ok?
    ensures var (labels1, rom1) := UseLabel(labels, rom, name, site).value;
      SetLabel(labels1, rom1, name, target).Ok? &&
      SetLabel(labels1, rom1, name, target).value.1 == Settled(labels, rom, name, site, target)
  {
    if Find(labels, name).None? {
      ReferenceNewThenDefinition(labels, rom, name, site, target);
    } else {
      ReferencePendingThenDefinition(labels, rom, name, site, target);
    }
  }

  lemma ReferenceNewThenDefinition(labels: seq<Label>, rom: Rom, name: string, site: nat, target: bv16)
    requires site < |rom| && target <= MaxTarget
    requires AllSitesIn(labels, |rom|)
    requires Find(labels, name).None?
    ensures UseLabel(labels, rom, name, site).Ok?
    ensures var (labels1, rom1) := UseLabel(labels, rom, name, site).value;
      SetLabel(labels1, rom1, name, target).Ok? &&
      SetLabel(labels1, rom1, name, target).value.1 == Settled(labels, rom, name, site, target)
  {
    var l := Label(name, None, [site]);
    var labels1 := [l] + labels;
    assert UseLabel(labels, rom, name, site) == Ok((labels1, rom));
    FindNewest(labels, l, name);
    assert labels1[0] == l;
    assert SetLabel(labels1, rom, name, target).value.1 == PatchAll(rom, [site], target).value;
  }

  lemma ReferencePendingThenDefinition(labels: seq<Label>, rom: Rom, name: string, site: nat, target: bv16)
    requires site < |rom| && target <= MaxTarget
    requires AllSitesIn(labels, |rom|)
    requires Find(labels, name).Some? && labels[Find(labels, name).value].addr.None?
    ensures UseLabel(labels, rom, name, site).Ok?
    ensures var (labels1, rom1) := UseLabel(labels, rom, name, site).value;
      SetLabel(labels1, rom1, name, target).Ok? &&
      SetLabel(labels1, rom1, name, target).value.1 == Settled(labels, rom, name, site, target)
  {
    var i := Find(labels, name).value;
    var prior := labels[i];
    assert prior in labels;
    var l := Label(prior.name, None, [site] + prior.sites);
    var labels1 := labels[i := l];
    assert UseLabel(labels, rom, name, site) == Ok((labels1, rom));
    FindAfterUpdate(labels, i, l, name);
    assert labels1[i] == l;
    assert l in labels1;
    var f := SetLabel(labels1, rom, name, target).value.1;
    assert PatchAll(rom, l.sites, target) == Ok(f);
    forall k | 0 <= k < |rom|
      ensures f[k] == Settled(labels, rom, name, site, target)[k]
    {
      if k in prior.sites {
        assert k in l.sites;
      }
    }
  }

  /** Defining a label that may still be defined at `target`, then referring
      to it, patches the branch along with every earlier reference. */
  lemma DefinitionThenReference(labels: seq<Label>, rom: Rom, name: string, site: nat, target: bv16)
    requires site < |rom| && target <= MaxTarget
    requires AllSitesIn(labels, |rom|)
    requires Undefined(labels, name)
    ensures SetLabel(labels, rom, name, target).Ok?
    ensures var (labels1, rom1) := SetLabel(labels, rom, name, target).value;
      |rom1| == |rom| &&
      UseLabel(labels1, rom1, name, site).Ok? &&
      UseLabel(labels1, rom1, name, site).value.1 == Settled(labels, rom, name, site, target)
  {
    if Find(labels, name).None? {
      DefinitionNewThenReference(labels, rom, name, site, target);
    } else {
      DefinitionPendingThenReference(labels, rom, name, site, target);
    }
  }

  lemma DefinitionNewThenReference(labels: seq<Label>, rom: Rom, name: string, site: nat, target: bv16)
    requires site < |rom| && target <= MaxTarget
    requires AllSitesIn(labels, |rom|)
    requires Find(labels, name).None?
    ensures SetLabel(labels, rom, name, target).Ok?
    ensures var (labels1, rom1) := SetLabel(labels, rom, name, target).value;
      |rom1| == |rom| &&
      UseLabel(labels1, rom1, name, site).Ok? &&
      UseLabel(labels1, rom1, name, site).value.1 == Settled(labels, rom, name, site, target)
  {
    var l := Label(name, Some(target), []);
    var labels1 := [l] + labels;
    assert SetLabel(labels, rom, name, target) == Ok((labels1, rom));
    FindNewest(labels, l, name);
    assert labels1[0] == l;
  }

  lemma DefinitionPendingThenReference(labels: seq<Label>, rom: Rom, name: string, site: nat, target: bv16)
    requires site < |rom| && target <= MaxTarget
    requires AllSitesIn(labels, |rom|)
    requires Find(labels, name).Some? && labels[Find(labels, name).value].addr.None?
    ensures SetLabel(labels, rom, name, target).Ok?
    ensures var (labels1, rom1) := SetLabel(labels, rom, name, target).value;
      |rom1| == |rom| &&
      UseLabel(labels1, rom1, name, site).Ok? &&
      UseLabel(labels1, rom1, name, site).value.1 == Settled(labels, rom, name, site, target)
  {
    var i := Find(labels, name).value;
    var prior := labels[i];
    assert prior in labels;
    var (labels1, rom1) := SetLabel(labels, rom, name, target).value;
    var l := Label(prior.name, Some(target), prior.sites);
    assert labels1 == labels[i := l];
    FindAfterUpdate(labels, i, l, name);
    assert labels1[i] == l;
    assert PatchAll(rom, prior.sites, target) == Ok(rom1);
    var b := UseLabel(labels1, rom1, name, site).value.1;
    assert b == rom1[site := Patch(rom1[site], target)];
    PatchSiteLast(rom, prior.sites, site, target);
  }

  /** Patching the recorded sites and then `site` gives the same image as
      patching `site` along with them. */
  lemma PatchSiteLast(rom: Rom, sites: seq<nat>, site: nat, target: bv16)
    requires site < |rom| && target <= MaxTarget
    requires SitesIn(sites, |rom|)
    ensures PatchAll(rom, sites, target).Ok?
    ensures var r := PatchAll(rom, sites, target).value;
      r[site := Patch(r[site], target)] == PatchAll(rom, [site] + sites, target).value
  {
    var r := PatchAll(rom, sites, target).value;
    var b := r[site := Patch(r[site], target)];
    var all := PatchAll(rom, [site] + sites, target).value;
    forall k | 0 <= k < |rom|
      ensures b[k] == all[k]
    {
      if k == site && site in sites {
        PatchTwice(rom[site], target);
      }
    }
  }

  /** The image once `name` is defined at `target` and the branch at `site`
      refers to it: every branch recorded for the name, and the one at
      `site`, point to `target`. */
  function Settled(labels: seq<Label>, rom: Rom, name: string, site: nat, target: bv16): (r: Rom)
    requires site < |rom| && target <= MaxTarget
    requires AllSitesIn(labels, |rom|)
    ensures |r| == |rom|
  {
    var pending := match Find(labels, name) case None => [] case Some(i) => labels[i].sites;
    assert Find(labels, name).Some? ==> labels[Find(labels, name).value] in labels;
    PatchAll(rom, [site] + pending, target).value
  }

  /** A branch referring to a label before its definition (patched when the
      definition comes) ends up exactly as one referring to it after (patched
      at once): both orders give the same image. */
  lemma ForwardAndBackwardAgree(labels: seq<Label>, rom: Rom, name: string, site: nat, target: bv16)
    requires site < |rom| && target <= MaxTarget
    requires AllSitesIn(labels, |rom|)
    requires Undefined(labels, name)
    ensures UseLabel(labels, rom, name, site).Ok? && SetLabel(labels, rom, name, target).Ok?
    ensures var (fl, fr) := UseLabel(labels, rom, name, site).value;
            var (bl, br) := SetLabel(labels, rom, name, target).value;
      |br| == |rom| && SetLabel(fl, fr, name, target).Ok? && UseLabel(bl, br, name, site).Ok? &&
      SetLabel(fl, fr, name, target).value.1 == UseLabel(bl, br, name, site).value.1
  {
    ReferenceThenDefinition(labels, rom, name, site, target);
    DefinitionThenReference(labels, rom, name, site, target);
  }

  /** Defining a label twice is fatal, whatever the spelling: a label
      defined once cannot be defined again. */
  lemma CannotRedefineLabel(labels: seq<Label>, rom: Rom, name: string, pc: bv16, name': string, pc': bv16)
    requires AllSitesIn(labels, |rom|)
    requires SetLabel(labels, rom, name, pc).Ok?
    requires SameIgnoringCase(name, name')
    ensures AllSitesIn(SetLabel(labels, rom, name, pc).value.0, |SetLabel(labels, rom, name, pc).value.1|)
    ensures SetLabel(SetLabel(labels, rom, name, pc).value.0, SetLabel(labels, rom, name, pc).value.1, name', pc')
         == Err(CannotRedefine(name'))
  {
    var r := SetLabel(labels, rom, name, pc).value;
    match Find(labels, name)
    case None =>
      var l := Label(name, Some(pc), []);
      assert r.0 == [l] + labels;
      FindNewest(labels, l, name');
      assert r.0[0] == l;
      assert forall x :: x in r.0 ==> x == l || x in labels;
    case Some(i) =>
      var prior := labels[i];
      var l := Label(prior.name, Some(pc), prior.sites);
      assert r.0 == labels[i := l];
      assert forall x :: x in r.0 ==> x == l || x in labels;
      assert prior in labels;
      FindAfterUpdate(labels, i, l, name');
      forall j | 0 <= j < |labels|
        ensures SameIgnoringCase(labels[j].name, name') <==> SameIgnoringCase(labels[j].name, name)
      {
        SameIgnoringCaseSymmetric(name, name');
        if SameIgnoringCase(labels[j].name, name') {
          SameIgnoringCaseTransitive(labels[j].name, name', name);
        }
        if SameIgnoringCase(labels[j].name, name) {
          SameIgnoringCaseTransitive(labels[j].name, name, name');
        }
      }
      assert Find(labels, name') == Some(i);
      assert r.0[i] == l;
  }

  // ---------------------------------------------------------------------
  // The label list's invariant

  /** What a branch word at a recorded site holds: the label's address once
      it is defined, word 0 (the bare class word emitted) before. */
  predicate PointsTo(w: bv16, addr: Option<bv16>) {
    IsBranch(w) &&
    match addr
    case None => TargetField(w) == 0
    case Some(a) => a <= MaxTarget && TargetField(w) == a
  }

  /** Every recorded site of `l` lies below `pc` and holds a branch pointing
      where `l` says. */
  predicate LabelOk(l: Label, rom: Rom, pc: nat) {
    forall k :: 0 <= k < |l.sites| ==> l.sites[k] < pc <= |rom| && PointsTo(rom[l.sites[k]], l.addr)
  }

  predicate Disjoint(a: seq<nat>, b: seq<nat>) {
    forall s :: s in a ==> s !in b
  }

  /** The list after any run of definitions and references up to `pc`:
      names are distinct ignoring case, no branch is recorded under two
      labels, and every label is consistent with the image. */
  predicate WellFormed(labels: seq<Label>, rom: Rom, pc: nat) {
    pc <= |rom| &&
    (forall i, j :: 0 <= i < j < |labels| ==> !SameIgnoringCase(labels[i].name, labels[j].name)) &&
    (forall i, j :: 0 <= i < j < |labels| ==> Disjoint(labels[i].sites, labels[j].sites)) &&
    (forall i :: 0 <= i < |labels| ==> LabelOk(labels[i], rom, pc))
  }

  lemma WellFormedSitesIn(labels: seq<Label>, rom: Rom, pc: nat)
    requires WellFormed(labels, rom, pc)
    ensures AllSitesIn(labels, |rom|)
  {
    forall l | l in labels
      ensures SitesIn(l.sites, |rom|)
    {
      var i :| 0 <= i < |labels| && labels[i] == l;
      assert LabelOk(labels[i], rom, pc);
    }
  }

  /** Changes to the image that leave every recorded branch pointing where
      it did: words that are not branches may change freely (no site holds
      one), and branches may change class but not target. */
  predicate KeepsBranches(rom: Rom, rom': Rom, pc: nat) {
    |rom'| == |rom| && pc <= |rom| &&
    forall k :: 0 <= k < pc ==> rom'[k] == rom[k] || !IsBranch(rom[k]) ||
                                (IsBranch(rom'[k]) && TargetField(rom'[k]) == TargetField(rom[k]))
  }

  /** The invariant survives a change that keeps branches, and a larger
      `pc`. */
  lemma WellFormedFrame(labels: seq<Label>, rom: Rom, rom': Rom, pc: nat, pc': nat)
    requires WellFormed(labels, rom, pc)
    requires KeepsBranches(rom, rom', pc)
    requires pc <= pc' <= |rom'|
    ensures WellFormed(labels, rom', pc')
  {
    forall i | 0 <= i < |labels|
      ensures LabelOk(labels[i], rom', pc')
    {
      var l := labels[i];
      assert LabelOk(l, rom, pc);
      forall k | 0 <= k < |l.sites|
        ensures l.sites[k] < pc' <= |rom'| && PointsTo(rom'[l.sites[k]], l.addr)
      {
        var s := l.sites[k];
        assert PointsTo(rom[s], l.addr);
      }
    }
  }

  lemma WellFormedEmpty(rom: Rom, pc: nat)
    requires pc <= |rom|
    ensures WellFormed([], rom, pc)
  {
  }

  lemma SameClassSameBranch(w: bv16, w': bv16)
    requires w & ClassMask == w' & ClassMask
    ensures IsBranch(w) <==> IsBranch(w')
  {
  }

  /** A new label whose name is not taken, whose sites are recorded
      nowhere else and that is consistent with the image can be put at the
      head of a well-formed list. */
  lemma WellFormedPrepend(labels: seq<Label>, rom: Rom, n: nat, l: Label)
    requires WellFormed(labels, rom, n)
    requires forall j :: 0 <= j < |labels| ==> !SameIgnoringCase(l.name, labels[j].name)
    requires forall j :: 0 <= j < |labels| ==> Disjoint(l.sites, labels[j].sites)
    requires LabelOk(l, rom, n)
    ensures WellFormed([l] + labels, rom, n)
  {
    var r := [l] + labels;
    assert forall j :: 1 <= j < |r| ==> r[j] == labels[j - 1];
  }

  /** A label may be replaced by one of the same name whose sites are
      recorded nowhere else, in an image where every label is
      consistent. */
  lemma WellFormedReplace(labels: seq<Label>, rom: Rom, rom': Rom, n: nat, i: nat, l: Label)
    requires WellFormed(labels, rom, n) && i < |labels| && |rom'| == |rom|
    requires l.name == labels[i].name
    requires forall j :: 0 <= j < |labels| && j != i ==> Disjoint(l.sites, labels[j].sites) && Disjoint(labels[j].sites, l.sites)
    requires LabelOk(l, rom', n)
    requires forall j :: 0 <= j < |labels| && j != i ==> LabelOk(labels[j], rom', n)
    ensures WellFormed(labels[i := l], rom', n)
  {
  }

  /** Patching the sites of label `i` leaves the other labels consistent:
      their sites are elsewhere. */
  lemma OthersUntouched(labels: seq<Label>, rom: Rom, rom': Rom, n: nat, i: nat)
    requires WellFormed(labels, rom, n) && i < |labels| && |rom'| == |rom|
    requires forall k :: 0 <= k < |rom| && k !in labels[i].sites ==> rom'[k] == rom[k]
    ensures forall j :: 0 <= j < |labels| && j != i ==> LabelOk(labels[j], rom', n)
  {
    forall j | 0 <= j < |labels| && j != i
      ensures LabelOk(labels[j], rom', n)
    {
      assert LabelOk(labels[j], rom, n);
      assert Disjoint(labels[i].sites, labels[j].sites) || Disjoint(labels[j].sites, labels[i].sites);
      forall k | 0 <= k < |labels[j].sites|
        ensures rom'[labels[j].sites[k]] == rom[labels[j].sites[k]]
      {
        assert labels[j].sites[k] in labels[j].sites;
      }
    }
  }

  /** Patching every site of an undefined label to `pc` makes it consistent
      as a label defined at `pc`. */
  lemma PatchedLabelOk(l: Label, rom: Rom, rom': Rom, pc: bv16, n: nat)
    requires l.addr.None? && LabelOk(l, rom, n)
    requires SitesIn(l.sites, |rom|)
    requires PatchAll(rom, l.sites, pc) == Ok(rom')
    ensures LabelOk(Label(l.name, Some(pc), l.sites), rom', n)
  {
    forall k | 0 <= k < |l.sites|
      ensures PointsTo(rom'[l.sites[k]], Some(pc))
    {
      var s := l.sites[k];
      assert s in l.sites;
      assert PointsTo(rom[s], None);
      SameClassSameBranch(rom[s], rom'[s]);
    }
  }

  lemma NameIsNew(labels: seq<Label>, name: string)
    requires Find(labels, name).None?
    ensures forall j :: 0 <= j < |labels| ==> !SameIgnoringCase(name, labels[j].name)
  {
    forall j | 0 <= j < |labels|
      ensures !SameIgnoringCase(name, labels[j].name)
    {
      SameIgnoringCaseSymmetric(labels[j].name, name);
    }
  }

  /** Defining a label keeps the list well formed. */
  lemma SetLabelKeeps(labels: seq<Label>, rom: Rom, name: string, pc: bv16, n: nat)
    requires WellFormed(labels, rom, n)
    requires AllSitesIn(labels, |rom|)
    requires SetLabel(labels, rom, name, pc).Ok?
    ensures WellFormed(SetLabel(labels, rom, name, pc).value.0, SetLabel(labels, rom, name, pc).value.1, n)
  {
    var (labels', rom') := SetLabel(labels, rom, name, pc).value;
    match Find(labels, name)
    case None =>
      NameIsNew(labels, name);
      WellFormedPrepend(labels, rom, n, Label(name, Some(pc), []));
    case Some(i) =>
      var prior := labels[i];
      assert prior in labels;
      PatchedLabelOk(prior, rom, rom', pc, n);
      OthersUntouched(labels, rom, rom', n, i);
      WellFormedReplace(labels, rom, rom', n, i, Label(prior.name, Some(pc), prior.sites));
  }

  /** A position not yet reached is recorded under no label. */
  lemma SiteIsFresh(labels: seq<Label>, rom: Rom, site: nat)
    requires WellFormed(labels, rom, site)
    ensures forall j :: 0 <= j < |labels| ==> site !in labels[j].sites
  {
    forall j | 0 <= j < |labels|
      ensures site !in labels[j].sites
    {
      assert LabelOk(labels[j], rom, site);
    }
  }

  /** Recording the branch just emitted at `site` (the bare class word)
      keeps the list well formed, one position further on. */
  lemma UseLabelKeeps(labels: seq<Label>, rom: Rom, name: string, site: nat)
    requires WellFormed(labels, rom, site)
    requires site < |rom| && PointsTo(rom[site], None)
    requires UseLabel(labels, rom, name, site).Ok?
    ensures WellFormed(UseLabel(labels, rom, name, site).value.0, UseLabel(labels, rom, name, site).value.1, site + 1)
  {
    var (labels', rom') := UseLabel(labels, rom, name, site).value;
    match Find(labels, name)
    case None =>
      NewReferenceKeeps(labels, rom, name, site);
    case Some(i) =>
      match labels[i].addr
      case Some(a) =>
        WellFormedFrame(labels, rom, rom', site, site + 1);
      case None =>
        PendingReferenceKeeps(labels, rom, i, site);
  }

  lemma NewReferenceKeeps(labels: seq<Label>, rom: Rom, name: string, site: nat)
    requires WellFormed(labels, rom, site)
    requires site < |rom| && PointsTo(rom[site], None)
    requires Find(labels, name).None?
    ensures WellFormed([Label(name, None, [site])] + labels, rom, site + 1)
  {
    SiteIsFresh(labels, rom, site);
    NameIsNew(labels, name);
    WellFormedFrame(labels, rom, rom, site, site + 1);
    WellFormedPrepend(labels, rom, site + 1, Label(name, None, [site]));
  }

  lemma PendingReferenceKeeps(labels: seq<Label>, rom: Rom, i: nat, site: nat)
    requires WellFormed(labels, rom, site)
    requires site < |rom| && PointsTo(rom[site], None)
    requires i < |labels| && labels[i].addr.None?
    ensures WellFormed(labels[i := Label(labels[i].name, None, [site] + labels[i].sites)], rom, site + 1)
  {
    SiteIsFresh(labels, rom, site);
    var prior := labels[i];
    var l := Label(prior.name, None, [site] + prior.sites);
    WellFormedFrame(labels, rom, rom, site, site + 1);
    assert LabelOk(prior, rom, site + 1);
    assert LabelOk(l, rom, site + 1);
    WellFormedReplace(labels, rom, rom, site + 1, i, l);
  }
}

=== FILE: literals.dfy ===
/** Numeric literals: `to_u16`, a guard on the first character followed by
    strtoul(in, NULL, 0) stored into a 32-bit `unsigned` and truncated to
    16 bits. The digit grammar is strtoul's with base 0: an optional '-',
    then "0x"/"0X" and hex digits, or a leading '0' and octal digits, or
    decimal digits; the longest run of digits counts and the rest of the
    token is ignored. */
module Literals {
  import opened Base

  predicate IsDigit(c: char) {
    '0' <= c <= '9'
  }

  /** Value of `c` as a digit in any base up to 36; 36 when it is none. */
  function DigitValue(c: char): nat {
    if '0' <= c <= '9' then c as nat - '0' as nat
    else if 'a' <= c <= 'z' then c as nat - 'a' as nat + 10
    else if 'A' <= c <= 'Z' then c as nat - 'A' as nat + 10
    else 36
  }

  predicate IsBaseDigit(c: char, base: nat) {
    DigitValue(c) < base
  }

  /** Length of the longest prefix of `s` made of digits of `base`. */
  function DigitRun(s: string, base: nat): (n: nat)
    ensures n <= |s|
    ensures forall i :: 0 <= i < n ==> IsBaseDigit(s[i], base)
    ensures n < |s| ==> !IsBaseDigit(s[n], base)
  {
    if |s| == 0 || !IsBaseDigit(s[0], base) then 0 else 1 + DigitRun(s[1..], base)
  }

  /** Positional value of a digit string, most significant digit first. */
  function Horner(ds: string, base: nat): nat {
    if |ds| == 0 then 0 else Horner(ds[..|ds| - 1], base) * base + DigitValue(ds[|ds| - 1])
  }

  /** Value of the digits of the longest base-`base` prefix of `s`. */
  function PrefixValue(s: string, base: nat): nat {
    Horner(s[..DigitRun(s, base)], base)
  }

  /** strtoul's unsigned magnitude after the sign, base chosen by prefix. */
  function Magnitude(body: string): nat {
    if |body| >= 2 && body[0] == '0' && (body[1] == 'x' || body[1] == 'X') then
      PrefixValue(body[2..], 16)
    else if |body| >= 1 && body[0] == '0' then
      PrefixValue(body, 8)
    else
      PrefixValue(body, 10)
  }

  /** The mathematical value a token denotes: its magnitude, negated when
      the token starts with '-'. */
  function SignedValue(s: string): int {
    if |s| > 0 && s[0] == '-' then -(Magnitude(s[1..]) as int) else Magnitude(s)
  }

  /** The guard of to_u16: a digit or a minus sign comes first. */
  predicate StartsNumber(s: string) {
    |s| > 0 && (IsDigit(s[0]) || s[0] == '-')
  }

  /** C's `unsigned`: a 32-bit unsigned value, kept as an integer. */
  type U32 = x: int | 0 <= x < 0x1_0000_0000

  /** `unsigned n = strtoul(in, NULL, 0)`: the value reduced modulo 2^32. */
  function StrToUnsigned(s: string): (n: U32)
    ensures 0 <= SignedValue(s) < 0x1_0000_0000 ==> n == SignedValue(s)
    ensures -0x1_0000_0000 <= SignedValue(s) < 0 ==> n == SignedValue(s) + 0x1_0000_0000
    ensures (n - SignedValue(s)) % 0x1_0000_0000 == 0
  {
    SignedValue(s) % 0x1_0000_0000
  }

  lemma ModUnique(x: int, k: int, b: int)
    requires 0 <= b < 0x1_0000
    requires x == k * 0x1_0000 + b
    ensures x % 0x1_0000 == b
  {
  }

  lemma ModOfMod(x: int)
    ensures (x % 0x1_0000_0000) % 0x1_0000 == x % 0x1_0000
  {
    var q := x / 0x1_0000_0000;
    var r := x % 0x1_0000_0000;
    var a := r / 0x1_0000;
    var b := r % 0x1_0000;
    assert r == a * 0x1_0000 + b;
    assert x == (q * 0x1_0000 + a) * 0x1_0000 + b;
    ModUnique(x, q * 0x1_0000 + a, b);
  }

  /** The 16-bit word holding `x` modulo 2^16 (two's complement for
      negative `x`). */
  function Wrap16(x: int): bv16 {
    (x % 0x1_0000) as bv16
  }

  /** to_u16: fails exactly when the first character is neither a digit nor
      '-', and then with "not a number"; otherwise yields the token's value
      modulo 2^16, so negative literals wrap to their two's complement. The
      range test is written on the number; RangeCheck.MaskTests shows it is
      the source's bit test. */
  function ToU16(s: string): (r: Result<bv16>)
    ensures r.Err? <==> !StartsNumber(s)
    ensures r.Err? ==> r.error == NotANumber(s)
    ensures r.Ok? ==> r.value == Wrap16(SignedValue(s))
  {
    if !StartsNumber(s) then Err(NotANumber(s))
    else
      var n := StrToUnsigned(s);
      if n >= 0x1_0000 && n < 0x8000 then Err(NotSixteenBit(n))
      else
        ModOfMod(SignedValue(s));
        Ok((n % 0x1_0000) as bv16)
  }

  // ---------------------------------------------------------------------
  // Renderings that parse back to the number they render

  function DecimalDigit(d: nat): char
    requires d < 10
  {
    ('0' as int + d) as char
  }

  /** The usual decimal rendering, without leading zeros. */
  function Decimal(n: nat): (s: string)
    ensures |s| > 0 && IsDigit(s[0])
    ensures forall i :: 0 <= i < |s| ==> IsBaseDigit(s[i], 10)
    ensures n > 0 ==> s[0] != '0'
  {
    if n < 10 then [DecimalDigit(n)] else Decimal(n / 10) + [DecimalDigit(n % 10)]
  }

  function HexDigit(d: nat): char
    requires d < 16
  {
    if d < 10 then ('0' as int + d) as char else ('a' as int + d - 10) as char
  }

  /** Lower-case hexadecimal rendering, without a prefix. */
  function Hex(n: nat): (s: string)
    ensures |s| > 0
    ensures forall i :: 0 <= i < |s| ==> IsBaseDigit(s[i], 16)
  {
    if n < 16 then [HexDigit(n)] else Hex(n / 16) + [HexDigit(n % 16)]
  }

  /** Octal rendering, without the leading '0' that selects base 8. */
  function Octal(n: nat): (s: string)
    ensures |s| > 0
    ensures forall i :: 0 <= i < |s| ==> IsBaseDigit(s[i], 8)
  {
    if n < 8 then [DecimalDigit(n)] else Octal(n / 8) + [DecimalDigit(n % 8)]
  }

  function HexUpperDigit(d: nat): char
    requires d < 16
  {
    if d < 10 then ('0' as int + d) as char else ('A' as int + d - 10) as char
  }

  /** Upper-case hexadecimal rendering, without a prefix. */
  function HexUpper(n: nat): (s: string)
    ensures |s| > 0
    ensures forall i :: 0 <= i < |s| ==> IsBaseDigit(s[i], 16)
  {
    if n < 16 then [HexUpperDigit(n)] else HexUpper(n / 16) + [HexUpperDigit(n % 16)]
  }

  lemma {:induction false} DecimalValue(n: nat)
    ensures DigitRun(Decimal(n), 10) == |Decimal(n)|
    ensures Horner(Decimal(n), 10) == n
  {
    var s := Decimal(n);
    AllDigitsRun(s, 10);
    if n >= 10 {
      DecimalValue(n / 10);
      assert s[..|s| - 1] == Decimal(n / 10);
    }
  }

  lemma {:induction false} HexValue(n: nat)
    ensures DigitRun(Hex(n), 16) == |Hex(n)|
    ensures Horner(Hex(n), 16) == n
  {
    var s := Hex(n);
    AllDigitsRun(s, 16);
    if n >= 16 {
      HexValue(n / 16);
      assert s[..|s| - 1] == Hex(n / 16);
    }
  }

  lemma {:induction false} OctalValue(n: nat)
    ensures Horner(Octal(n), 8) == n
  {
    var s := Octal(n);
    if n >= 8 {
      OctalValue(n / 8);
      assert s[..|s| - 1] == Octal(n / 8);
    }
  }

  /** A leading zero adds nothing to a positional value. */
  lemma {:induction false} HornerLeadingZero(ds: string, base: nat)
    ensures Horner("0" + ds, base) == Horner(ds, base)
    decreases |ds|
  {
    if |ds| == 0 {
      assert Horner("0", base) == Horner("0"[..0], base) * base + DigitValue('0');
    } else {
      var init := ds[..|ds| - 1];
      assert ("0" + ds)[..|ds|] == "0" + init;
      HornerLeadingZero(init, base);
    }
  }

  /** The digit run of a digit string ends where a non-digit follows it. */
  lemma {:induction false} DigitRunStops(ds: string, rest: string, base: nat)
    requires forall i :: 0 <= i < |ds| ==> IsBaseDigit(ds[i], base)
    requires |rest| > 0 && !IsBaseDigit(rest[0], base)
    ensures DigitRun(ds + rest, base) == |ds|
    decreases |ds|
  {
    if |ds| > 0 {
      assert (ds + rest)[1..] == ds[1..] + rest;
      DigitRunStops(ds[1..], rest, base);
    } else {
      assert ds + rest == rest;
    }
  }

  lemma {:induction false} HexUpperValue(n: nat)
    ensures DigitRun(HexUpper(n), 16) == |HexUpper(n)|
    ensures Horner(HexUpper(n), 16) == n
  {
    var s := HexUpper(n);
    AllDigitsRun(s, 16);
    if n >= 16 {
      HexUpperValue(n / 16);
      assert s[..|s| - 1] == HexUpper(n / 16);
    }
  }

  lemma AllDigitsRun(s: string, base: nat)
    requires forall i :: 0 <= i < |s| ==> IsBaseDigit(s[i], base)
    ensures DigitRun(s, base) == |s|
  {
    if |s| > 0 {
      AllDigitsRun(s[1..], base);
    }
  }

  /** The decimal rendering of n has magnitude n, whichever base strtoul
      picks for it ("0" is read as octal). */
  lemma DecimalMagnitude(n: nat)
    ensures Magnitude(Decimal(n)) == n
  {
    DecimalValue(n);
    var s := Decimal(n);
    assert s[..|s|] == s;
    if n == 0 {
      assert s == "0";
      assert DigitRun(s, 8) == 1;
      assert Horner(s, 8) == Horner(s[..0], 8) * 8 + DigitValue('0');
    } else {
      assert Magnitude(s) == PrefixValue(s, 10);
    }
  }

  /** What strtoul hands to the 32-bit `unsigned`: a decimal number that
      fits is kept as it is. */
  lemma UnsignedOfDecimal(n: nat)
    requires n < 0x1_0000_0000
    ensures StrToUnsigned(Decimal(n)) == n
  {
    DecimalMagnitude(n);
    assert SignedValue(Decimal(n)) == n;
  }

  /** A negated decimal number wraps to 2^32 minus it. */
  lemma UnsignedOfNegative(n: nat)
    requires 0 < n <= 0x1_0000_0000
    ensures StrToUnsigned("-" + Decimal(n)) == 0x1_0000_0000 - n
  {
    DecimalMagnitude(n);
    var s := Decimal(n);
    assert ("-" + s)[1..] == s;
    assert SignedValue("-" + s) == -(n as int);
    NegativeMod(n);
  }

  lemma NegativeMod(n: nat)
    requires 0 < n <= 0x1_0000_0000
    ensures (-(n as int)) % 0x1_0000_0000 == 0x1_0000_0000 - n
  {
    if n < 0x1_0000_0000 {
      assert -(n as int) == -1 * 0x1_0000_0000 + (0x1_0000_0000 - n);
    }
  }

  /** A number written in decimal parses back to itself modulo 2^16. */
  lemma DecimalRoundTrip(n: nat)
    ensures ToU16(Decimal(n)).Ok?
    ensures ToU16(Decimal(n)).value == Wrap16(n)
  {
    DecimalMagnitude(n);
    assert SignedValue(Decimal(n)) == n;
  }

  /** A minus sign before a decimal number yields its 16-bit two's
      complement. */
  lemma NegativeRoundTrip(n: nat)
    ensures ToU16("-" + Decimal(n)).Ok?
    ensures ToU16("-" + Decimal(n)).value == Wrap16(-(n as int))
  {
    DecimalMagnitude(n);
    var s := Decimal(n);
    assert ("-" + s)[1..] == s;
    assert SignedValue("-" + s) == -(n as int);
  }

  /** A number written as 0x followed by hex digits parses back to itself
      modulo 2^16. */
  lemma HexRoundTrip(n: nat)
    ensures ToU16("0x" + Hex(n)).Ok?
    ensures ToU16("0x" + Hex(n)).value == Wrap16(n)
  {
    HexValue(n);
    var h := Hex(n);
    var s := "0x" + h;
    assert s[2..] == h;
    assert h[..|h|] == h;
    assert SignedValue(s) == n;
  }

  /** The prefix and the hex digits may be upper case: "0X" followed by
      upper-case hex digits parses back to the number modulo 2^16. */
  lemma HexUpperRoundTrip(n: nat)
    ensures ToU16("0X" + HexUpper(n)).Ok?
    ensures ToU16("0X" + HexUpper(n)).value == Wrap16(n)
  {
    HexUpperValue(n);
    var h := HexUpper(n);
    var s := "0X" + h;
    assert s[2..] == h;
    assert h[..|h|] == h;
    assert SignedValue(s) == n;
  }

  /** A leading 0 selects octal: "0" followed by the octal digits of n
      parses back to n modulo 2^16 (so "010" is 8). */
  lemma OctalRoundTrip(n: nat)
    ensures ToU16("0" + Octal(n)).Ok?
    ensures ToU16("0" + Octal(n)).value == Wrap16(n)
  {
    var o := Octal(n);
    var s := "0" + o;
    assert forall i :: 0 <= i < |s| ==> IsBaseDigit(s[i], 8) by {
      assert forall i :: 1 <= i < |s| ==> s[i] == o[i - 1];
    }
    AllDigitsRun(s, 8);
    assert s[..|s|] == s;
    HornerLeadingZero(o, 8);
    OctalValue(n);
    assert Magnitude(s) == PrefixValue(s, 8);
    assert SignedValue(s) == n;
  }

  /** strtoul stops at the first character that is not a digit: whatever
      follows a decimal number is ignored. Only "0x" is read differently,
      as the start of a hexadecimal literal. */
  lemma StopsAtNonDigit(n: nat, rest: string)
    requires |rest| > 0 && !IsDigit(rest[0])
    requires n == 0 ==> rest[0] != 'x' && rest[0] != 'X'
    ensures ToU16(Decimal(n) + rest) == Ok(Wrap16(n))
  {
    var ds := Decimal(n);
    var s := ds + rest;
    assert s[0] == ds[0];
    if n == 0 {
      assert ds == "0";
      assert s[1] == rest[0];
      DigitRunStops(ds, rest, 8);
      assert s[..1] == "0";
      assert Horner("0", 8) == Horner("0"[..0], 8) * 8 + DigitValue('0');
      assert Magnitude(s) == PrefixValue(s, 8) == 0;
    } else {
      DigitRunStops(ds, rest, 10);
      assert s[..|ds|] == ds;
      DecimalValue(n);
      assert Magnitude(s) == PrefixValue(s, 10) == n;
    }
    assert SignedValue(s) == n;
  }
}

=== FILE: microcode.dfy ===
/** Microprograms: the `UOP` table of named ALU-word fields, the list of
    user-defined microprograms (`<< name field ... >>`), the evaluation of a
    microprogram body to one word, and the two lookups the emitter and the
    disassembler make. The list is kept newest first, as the source
    prepends each definition to its linked list. */
module Microcode {
  import opened Base
  import opened Literals
  import opened Isa

  datatype Uop = Uop(op: bv16, name: string)

  /** The named fields an ALU word is built from, in the source's order,
      "ALU" first. No field name could also be read as a number, so the
      order of the two tests in a body token does not matter. */
  function UopTable(): (t: seq<Uop>)
    ensures |t| == 27 && t[0] == Uop(AluClass, "ALU")
    ensures forall k :: 0 <= k < |t| ==> !StartsNumber(t[k].name)
  {
    [
    Uop(0x6000, "ALU"),

    Uop(0x1000, "R->PC"),
    Uop(0x0080, "T->N"),
    Uop(0x0040, "T->R"),
    Uop(0x0020, "N->[T]"),
    Uop(0x0004, "R+"),
    Uop(0x000C, "R-"),
    Uop(0x0008, "R-2"),
    Uop(0x0001, "D+"),
    Uop(0x0003, "D-"),
    Uop(0x0002, "D-2"),

    Uop(0x0000, "T"),
    Uop(0x0100, "N"),
    Uop(0x0200, "T+N"),
    Uop(0x0300, "T&N"),
    Uop(0x0400, "T|N"),
    Uop(0x0500, "T^N"),
    Uop(0x0600, "~T"),
    Uop(0x0700, "N==T"),
    Uop(0x0800, "N<T"),
    Uop(0x0900, "N>>T"),
    Uop(0x0A00, "T-1"),
    Uop(0x0B00, "R"),
    Uop(0x0C00, "[T]"),
    Uop(0x0D00, "N<<T"),
    Uop(0x0E00, "dsp"),
    Uop(0x0F00, "Nu<T")
    ]
  }

  /** The value of the first entry of `table`, from index `i` on, whose
      name matches `tok`, ignoring case: the scan over UOP in
      assemble_microprogram. */
  function UopFrom(table: seq<Uop>, tok: string, i: nat): Option<bv16>
    decreases |table| - i
  {
    if i >= |table| then None
    else if SameIgnoringCase(table[i].name, tok) then Some(table[i].op)
    else UopFrom(table, tok, i + 1)
  }

  function UopLookup(tok: string): Option<bv16> {
    UopFrom(UopTable(), tok, 0)
  }

  /** The scan finds a field exactly when some entry at or after `i` spells
      it, ignoring case, and then yields the value of the first such entry. */
  lemma {:induction false} UopFromFindsFirst(table: seq<Uop>, tok: string, i: nat)
    ensures UopFrom(table, tok, i).None? <==> forall k :: i <= k < |table| ==> !SameIgnoringCase(table[k].name, tok)
    ensures UopFrom(table, tok, i).Some? ==>
      exists k :: i <= k < |table| && SameIgnoringCase(table[k].name, tok) && table[k].op == UopFrom(table, tok, i).value
               && forall j :: i <= j < k ==> !SameIgnoringCase(table[j].name, tok)
    decreases |table| - i
  {
    if i < |table| && !SameIgnoringCase(table[i].name, tok) {
      UopFromFindsFirst(table, tok, i + 1);
    }
  }

  /** One token of a microprogram body: a field name, or else a literal. */
  function TokenWord(tok: string): (r: Result<bv16>)
    ensures r.Err? <==> UopLookup(tok).None? && !StartsNumber(tok)
    ensures r.Err? ==> r.error == NotANumber(tok)
    ensures UopLookup(tok).Some? ==> r == Ok(UopLookup(tok).value)
    ensures UopLookup(tok).None? && r.Ok? ==> r.value == Wrap16(SignedValue(tok))
  {
    match UopLookup(tok)
    case Some(v) => Ok(v)
    case None => ToU16(tok)
  }

  /** assemble_microprogram's loop: the word of each token ORed into the
      accumulator in turn, stopping at the first token `eval` rejects.
      Written for any token evaluator so that its properties do not depend
      on the field table or the literal grammar. */
  function Accumulate(eval: string -> Result<bv16>, body: seq<string>, acc: bv16): Result<bv16>
    decreases |body|
  {
    if |body| == 0 then Ok(acc)
    else
      var w :- eval(body[0]);
      Accumulate(eval, body[1..], acc | w)
  }

  /** The word a microprogram body assembles to, starting from 0. */
  function BodyWord(body: seq<string>): Result<bv16> {
    Accumulate(TokenWord, body, 0)
  }

  /** `w` has none of the bits of mask `m`. Kept as a predicate of its own:
      the bit test stays out of the quantified formulas below. */
  predicate Misses(w: bv16, m: bv16) {
    w & m == 0
  }

  lemma MissesOr(a: bv16, b: bv16, m: bv16)
    ensures Misses(a | b, m) <==> Misses(a, m) && Misses(b, m)
  {
    assert (a | b) & m == (a & m) | (b & m);
  }

  /** The loop fails exactly when some token is one `eval` rejects. */
  lemma {:induction false} AccumulateOk(eval: string -> Result<bv16>, body: seq<string>, acc: bv16)
    ensures Accumulate(eval, body, acc).Ok? <==> forall k :: 0 <= k < |body| ==> eval(body[k]).Ok?
    decreases |body|
  {
    if |body| > 0 {
      assert forall k :: 1 <= k < |body| ==> body[k] == body[1..][k - 1];
      if eval(body[0]).Ok? {
        AccumulateOk(eval, body[1..], acc | eval(body[0]).value);
      }
    }
  }

  /** When the loop succeeds, its result misses the bits of a mask exactly
      when the start value and every token's word miss them: its bits are
      the union of theirs. */
  lemma {:induction false} AccumulateMisses(eval: string -> Result<bv16>, body: seq<string>, acc: bv16, m: bv16)
    requires forall k :: 0 <= k < |body| ==> eval(body[k]).Ok?
    ensures Accumulate(eval, body, acc).Ok?
    ensures Misses(Accumulate(eval, body, acc).value, m) <==>
      Misses(acc, m) && forall k :: 0 <= k < |body| ==> Misses(eval(body[k]).value, m)
    decreases |body|
  {
    if |body| > 0 {
      assert forall k :: 1 <= k < |body| ==> body[k] == body[1..][k - 1];
      var w := eval(body[0]).value;
      AccumulateMisses(eval, body[1..], acc | w, m);
      MissesOr(acc, w, m);
    }
  }

  /** Two words each missing the bits the other lacks are equal. */
  lemma BitsAntisymmetric(x: bv16, y: bv16)
    requires Misses(x, !y) && Misses(y, !x)
    ensures x == y
  {
  }

  lemma MissesComplement(x: bv16)
    ensures Misses(x, !x)
  {
  }

  lemma ZeroMisses(m: bv16)
    ensures Misses(0, m)
  {
  }

  /** A microprogram's word is the OR of its body's fields and literals:
      it fails exactly when some token is neither a field name nor a
      number, and otherwise misses the bits of a mask exactly when every
      token does. */
  lemma BodyWordIsUnion(body: seq<string>, m: bv16)
    ensures BodyWord(body).Ok? <==> forall k :: 0 <= k < |body| ==> TokenWord(body[k]).Ok?
    ensures BodyWord(body).Ok? ==>
      (Misses(BodyWord(body).value, m) <==> forall k :: 0 <= k < |body| ==> Misses(TokenWord(body[k]).value, m))
  {
    AccumulateOk(TokenWord, body, 0);
    if BodyWord(body).Ok? {
      AccumulateMisses(TokenWord, body, 0, m);
      ZeroMisses(m);
    }
  }

  /** The same, read on the set of tokens of the body. */
  lemma BodyWordMisses(body: seq<string>, m: bv16)
    requires BodyWord(body).Ok?
    ensures forall t :: t in body ==> TokenWord(t).Ok?
    ensures Misses(BodyWord(body).value, m) <==> forall t :: t in body ==> Misses(TokenWord(t).value, m)
  {
    BodyWordIsUnion(body, m);
    assert forall k :: 0 <= k < |body| ==> body[k] in body;
  }

  /** Token order and repetition do not matter: two bodies made of the same
      tokens either both fail or give the same word. */
  lemma BodyWordDependsOnTokenSet(b1: seq<string>, b2: seq<string>)
    requires forall t :: t in b1 <==> t in b2
    ensures BodyWord(b1).Ok? <==> BodyWord(b2).Ok?
    ensures BodyWord(b1).Ok? ==> BodyWord(b1).value == BodyWord(b2).value
  {
    BodyWordIsUnion(b1, 0);
    BodyWordIsUnion(b2, 0);
    assert forall k :: 0 <= k < |b1| ==> b1[k] in b2;
    assert forall k :: 0 <= k < |b2| ==> b2[k] in b1;
    if BodyWord(b1).Ok? {
      var x1, x2 := BodyWord(b1).value, BodyWord(b2).value;
      MissesComplement(x1);
      MissesComplement(x2);
      BodyWordMisses(b1, !x1);
      BodyWordMisses(b2, !x1);
      BodyWordMisses(b1, !x2);
      BodyWordMisses(b2, !x2);
      BitsAntisymmetric(x1, x2);
    }
  }

  datatype Microprogram = Microprogram(name: string, op: bv16)

  /** `<< name ... >>` adds a definition at the head of the list. */
  function Define(ups: seq<Microprogram>, up: Microprogram): (r: seq<Microprogram>)
    ensures |r| == |ups| + 1 && r[0] == up && r[1..] == ups
  {
    [up] + ups
  }

  /** The word of the first (newest) microprogram whose name matches,
      ignoring case. */
  function ByName(ups: seq<Microprogram>, name: string): (r: Option<bv16>)
    ensures r.None? <==> forall i :: 0 <= i < |ups| ==> !SameIgnoringCase(name, ups[i].name)
    ensures r.Some? ==> exists i :: 0 <= i < |ups| && SameIgnoringCase(name, ups[i].name)
                                 && ups[i].op == r.value
                                 && forall j :: 0 <= j < i ==> !SameIgnoringCase(name, ups[j].name)
  {
    match FirstMatch(ups, (u: Microprogram) => SameIgnoringCase(name, u.name))
    case None => None
    case Some(i) => Some(ups[i].op)
  }

  /** The name of the first (newest) microprogram whose word is exactly
      `op`. */
  function ByValue(ups: seq<Microprogram>, op: bv16): (r: Option<string>)
    ensures r.None? <==> forall i :: 0 <= i < |ups| ==> ups[i].op != op
    ensures r.Some? ==> exists i :: 0 <= i < |ups| && ups[i].op == op && ups[i].name == r.value
                                 && forall j :: 0 <= j < i ==> ups[j].op != op
  {
    match FirstMatch(ups, (u: Microprogram) => u.op == op)
    case None => None
    case Some(i) => Some(ups[i].name)
  }

  /** The newest definition of a name is the one found, under any spelling
      of the name; names that do not match are found as before. */
  lemma NewestDefinitionWins(ups: seq<Microprogram>, up: Microprogram, name: string)
    ensures SameIgnoringCase(name, up.name) ==> ByName(Define(ups, up), name) == Some(up.op)
    ensures !SameIgnoringCase(name, up.name) ==> ByName(Define(ups, up), name) == ByName(ups, name)
  {
    if !SameIgnoringCase(name, up.name) {
      OlderDefinitionsFound(ups, up, name);
    }
  }

  lemma OlderDefinitionsFound(ups: seq<Microprogram>, up: Microprogram, name: string)
    requires !SameIgnoringCase(name, up.name)
    ensures ByName(Define(ups, up), name) == ByName(ups, name)
  {
    var r := Define(ups, up);
    assert forall i :: 1 <= i < |r| ==> r[i] == ups[i - 1];
    match ByName(r, name)
    case None =>
    case Some(v) =>
      var i :| 0 <= i < |r| && SameIgnoringCase(name, r[i].name) && r[i].op == v
               && forall j :: 0 <= j < i ==> !SameIgnoringCase(name, r[j].name);
      match ByName(ups, name)
      case None =>
      case Some(v') =>
        var i' :| 0 <= i' < |ups| && SameIgnoringCase(name, ups[i'].name) && ups[i'].op == v'
                  && forall j :: 0 <= j < i' ==> !SameIgnoringCase(name, ups[j].name);
        assert i' + 1 == i;
  }

  /** The tokens from position `k` on. */
  function Rest(toks: seq<string>, k: nat): seq<string> {
    if k <= |toks| then toks[k..] else []
  }

  /** Index of the first token `mark` at or after `k`: the `>>` closing a
      microprogram, the `)` closing a comment. */
  function NextMark(toks: seq<string>, k: nat, mark: string): (r: Option<nat>)
    ensures r.Some? ==> k <= r.value < |toks| && toks[r.value] == mark
    ensures r.Some? ==> forall j :: k <= j < r.value ==> toks[j] != mark
    ensures r.None? <==> forall j :: k <= j < |toks| ==> toks[j] != mark
    decreases |toks| - k
  {
    if k >= |toks| then None
    else if toks[k] == mark then Some(k)
    else NextMark(toks, k + 1, mark)
  }

  /** Index of the first `>>` at or after `k`. */
  function Terminator(toks: seq<string>, k: nat): (r: Option<nat>)
    ensures r.Some? ==> k <= r.value < |toks| && toks[r.value] == ">>"
  {
    NextMark(toks, k, ">>")
  }

  /** The end-of-input marker names no field and is not a number. */
  lemma EndIsNotAWord()
    ensures TokenWord("") == Err(NotANumber(""))
  {
    FieldNamesNonEmpty();
    NoEmptyField(UopTable(), 0);
  }

  lemma FieldNamesNonEmpty()
    ensures forall k :: 0 <= k < |UopTable()| ==> |UopTable()[k].name| > 0
  {
  }

  lemma {:induction false} NoEmptyField(table: seq<Uop>, i: nat)
    requires forall k :: 0 <= k < |table| ==> |table[k].name| > 0
    ensures UopFrom(table, "", i) == None
    decreases |table| - i
  {
    if i < |table| {
      NoEmptyField(table, i + 1);
    }
  }

  /** Reads a microprogram definition whose name is at `toks[i]` (just after
      `<<`); yields the definition and the position after its `>>`. The
      body runs to the first `>>`; if the input ends first, the
      end-of-input marker "" is read as one more body token and fails as a
      literal, which is how the source reports it. The name is copied
      before the end-of-input test, so that test never fires and a
      missing name is the empty one. */
  function ReadMicroprogram(toks: seq<string>, i: nat): (r: Result<(Microprogram, nat)>)
    ensures r.Ok? ==> Terminator(toks, i + 1) == Some(r.value.1 - 1)
    ensures r.Ok? ==> r.value.0.name == toks[i] && BodyWord(toks[i + 1..r.value.1 - 1]) == Ok(r.value.0.op)
    ensures Terminator(toks, i + 1).Some? && BodyWord(toks[i + 1..Terminator(toks, i + 1).value]).Ok? ==> r.Ok?
  {
    ReadDefinition(TokenWord, toks, i)
  }

  /** ReadMicroprogram for any token evaluator. */
  function ReadDefinition(eval: string -> Result<bv16>, toks: seq<string>, i: nat): (r: Result<(Microprogram, nat)>)
    ensures r.Ok? ==> Terminator(toks, i + 1) == Some(r.value.1 - 1)
    ensures r.Ok? ==> r.value.0.name == toks[i] && Accumulate(eval, toks[i + 1..r.value.1 - 1], 0) == Ok(r.value.0.op)
    ensures Terminator(toks, i + 1).Some? && Accumulate(eval, toks[i + 1..Terminator(toks, i + 1).value], 0).Ok? ==> r.Ok?
  {
    match Terminator(toks, i + 1)
    case Some(e) =>
      var op :- Accumulate(eval, toks[i + 1..e], 0);
      Ok((Microprogram(toks[i], op), e + 1))
    case None =>
      match Accumulate(eval, Rest(toks, i + 1), 0)
      case Err(error) => Err(error)
      case Ok(_) => Err(NotANumber(""))
  }

  /** How a definition fails: at the first token of the body that is
      neither a field nor a number, or, when every token is one and no
      `>>` follows, at the end of the input. */
  lemma ReadMicroprogramErrors(toks: seq<string>, i: nat)
    ensures Terminator(toks, i + 1).Some? && BodyWord(toks[i + 1..Terminator(toks, i + 1).value]).Err? ==>
      ReadMicroprogram(toks, i) == Err(BodyWord(toks[i + 1..Terminator(toks, i + 1).value]).error)
    ensures Terminator(toks, i + 1).None? && BodyWord(Rest(toks, i + 1)).Err? ==>
      ReadMicroprogram(toks, i) == Err(BodyWord(Rest(toks, i + 1)).error)
    ensures Terminator(toks, i + 1).None? && BodyWord(Rest(toks, i + 1)).Ok? ==>
      ReadMicroprogram(toks, i) == Err(NotANumber(""))
  {
  }

  /** A definition whose body holds no `>>` is read up to the first `>>`,
      with the body's word. */
  lemma ReadsUpToTerminator(name: string, body: seq<string>, rest: seq<string>)
    requires forall j :: 0 <= j < |body| ==> body[j] != ">>"
    requires BodyWord(body).Ok?
    ensures ReadMicroprogram(["<<", name] + body + [">>"] + rest, 1)
         == Ok((Microprogram(name, BodyWord(body).value), |body| + 3))
  {
    DefinitionUpToTerminator(TokenWord, name, body, rest);
  }

  lemma DefinitionUpToTerminator(eval: string -> Result<bv16>, name: string, body: seq<string>, rest: seq<string>)
    requires forall j :: 0 <= j < |body| ==> body[j] != ">>"
    requires Accumulate(eval, body, 0).Ok?
    ensures ReadDefinition(eval, ["<<", name] + body + [">>"] + rest, 1)
         == Ok((Microprogram(name, Accumulate(eval, body, 0).value), |body| + 3))
  {
    var toks := ["<<", name] + body + [">>"] + rest;
    TerminatorAfterBody(name, body, rest);
    assert Terminator(toks, 2) == Some(|body| + 2);
  }

  /** In `<< name body >> rest` with no `>>` in the body, the first `>>`
      after the name is the one after the body. */
  lemma TerminatorAfterBody(name: string, body: seq<string>, rest: seq<string>)
    requires forall j :: 0 <= j < |body| ==> body[j] != ">>"
    ensures var toks := ["<<", name] + body + [">>"] + rest;
      toks[1] == name && NextMark(toks, 2, ">>") == Some(|body| + 2) && toks[2..|body| + 2] == body
  {
    var toks := ["<<", name] + body + [">>"] + rest;
    var e := |body| + 2;
    assert toks[e] == ">>";
    assert forall j :: 2 <= j < e ==> toks[j] == body[j - 2];
    assert toks[2..e] == body;
  }

  /** STORE writes ALU N D- N->[T] then ALU N D- (the comment on the
      second word in the source leaves out the N field). */
  lemma StoreWordsAreFields()
    ensures UopTable()[0] == Uop(0x6000, "ALU") && UopTable()[12] == Uop(0x0100, "N")
    ensures UopTable()[9] == Uop(0x0003, "D-") && UopTable()[4] == Uop(0x0020, "N->[T]")
    ensures StoreWords == [UopTable()[0].op | UopTable()[12].op | UopTable()[9].op | UopTable()[4].op,
                           UopTable()[0].op | UopTable()[12].op | UopTable()[9].op]
  {
  }

  /** LOAD writes ALU T then ALU [T]. */
  lemma LoadWordsAreFields()
    ensures UopTable()[0] == Uop(0x6000, "ALU") && UopTable()[11] == Uop(0x0000, "T")
    ensures UopTable()[23] == Uop(0x0C00, "[T]")
    ensures LoadWords == [UopTable()[0].op | UopTable()[11].op, UopTable()[0].op | UopTable()[23].op]
  {
  }

  /** The complement step of PUSH is ALU ~T; a return is R->PC R-, and the
      plain return word is ALU with it. */
  lemma ReturnAndInvertAreFields()
    ensures UopTable()[0] == Uop(0x6000, "ALU") && UopTable()[17] == Uop(0x0600, "~T")
    ensures UopTable()[1] == Uop(0x1000, "R->PC") && UopTable()[6] == Uop(0x000C, "R-")
    ensures InvertTop == UopTable()[0].op | UopTable()[17].op
    ensures ReturnBits == UopTable()[1].op | UopTable()[6].op
    ensures PlainReturn == UopTable()[0].op | ReturnBits
  {
  }
}

=== FILE: rangecheck.dfy ===
/** The range test of to_u16, read on 32-bit words. It lives apart from the
    literal grammar: nothing else in the model needs 32-bit words. */
module RangeCheck {

  /** The two mask tests of to_u16 read on the number: some bit of the top
      half is set exactly when n >= 2^16, and no bit from 15 up is set
      exactly when n < 2^15. */
  lemma MaskTests(n: bv32)
    ensures (n & 0xFFFF_0000 != 0) == (n >= 0x1_0000)
    ensures (n & 0xFFFF_8000 == 0) == (n < 0x8000)
  {
  }

  /** The range test of to_u16 rejects a value whose top half is non-zero
      but whose bits 15..31 are all clear; the first implies the second is
      false, so the test never rejects anything. */
  lemma RangeCheckIsDead(n: bv32)
    ensures !(n & 0xFFFF_0000 != 0 && n & 0xFFFF_8000 == 0)
  {
  }
}

=== FILE: tokens.dfy ===
/** The token stream seen by the assembler: maximal runs of characters other
    than blank, tab, carriage return and newline (the strtok_r delimiter set
    of `next`). Line buffering, line numbers and the raw line kept for
    diagnostics are not modelled. */
module Tokens {

  predicate IsSeparator(c: char) {
    c == ' ' || c == '\t' || c == '\r' || c == '\n'
  }

  /** What `next` can hand out: a non-empty run of non-separators. The
      end-of-input marker is the empty string, which is therefore never a
      token. */
  predicate IsToken(t: string) {
    |t| > 0 && forall i :: 0 <= i < |t| ==> !IsSeparator(t[i])
  }

  /** All characters of `s` that are not separators, in order. */
  function Strip(s: string): string {
    if |s| == 0 then []
    else if IsSeparator(s[0]) then Strip(s[1..])
    else [s[0]] + Strip(s[1..])
  }

  function Concat(ts: seq<string>): string {
    if |ts| == 0 then [] else ts[0] + Concat(ts[1..])
  }

  /** Length of the run of non-separators at the front of `s`. */
  function WordLength(s: string): (n: nat)
    ensures n <= |s|
    ensures forall i :: 0 <= i < n ==> !IsSeparator(s[i])
    ensures n < |s| ==> IsSeparator(s[n])
  {
    if |s| == 0 || IsSeparator(s[0]) then 0 else 1 + WordLength(s[1..])
  }

  lemma {:induction false} StripWord(s: string, n: nat)
    requires n <= |s|
    requires forall i :: 0 <= i < n ==> !IsSeparator(s[i])
    ensures Strip(s) == s[..n] + Strip(s[n..])
    decreases n
  {
    if n > 0 {
      StripWord(s[1..], n - 1);
      assert s[1..][..n - 1] == s[1..n];
      assert s[1..][n - 1..] == s[n..];
      assert s[..n] == [s[0]] + s[1..n];
    }
  }

  /** Splits a text into its tokens. Nothing but separators is dropped: the
      tokens, glued back together, are exactly the text without its
      separators. */
  function Tokenize(s: string): (ts: seq<string>)
    ensures forall k :: 0 <= k < |ts| ==> IsToken(ts[k])
    ensures Concat(ts) == Strip(s)
    decreases |s|
  {
    if |s| == 0 then []
    else if IsSeparator(s[0]) then Tokenize(s[1..])
    else
      var n := WordLength(s);
      StripWord(s, n);
      [s[..n]] + Tokenize(s[n..])
  }

  /** A separator ends the run at the front, wherever it stands. */
  lemma {:induction false} WordLengthBeforeSeparator(a: string, c: char, b: string)
    requires IsSeparator(c)
    ensures WordLength(a + [c] + b) == WordLength(a)
    decreases |a|
  {
    var s := a + [c] + b;
    if |a| > 0 && !IsSeparator(a[0]) {
      assert s[1..] == a[1..] + [c] + b;
      WordLengthBeforeSeparator(a[1..], c, b);
    }
  }

  lemma {:induction false} WordLengthOfRun(t: string)
    requires forall i :: 0 <= i < |t| ==> !IsSeparator(t[i])
    ensures WordLength(t) == |t|
    decreases |t|
  {
    if |t| > 0 {
      WordLengthOfRun(t[1..]);
    }
  }

  /** A single token is split into itself: runs are never broken up. */
  lemma TokenizeToken(t: string)
    requires IsToken(t)
    ensures Tokenize(t) == [t]
  {
    WordLengthOfRun(t);
    assert t[..|t|] == t;
    assert t[|t|..] == [];
  }

  /** A separator splits the text: the tokens of what stands before it
      followed by those of what stands after it. With TokenizeToken this
      fixes the split of every text, as strtok_r makes it. */
  lemma {:induction false} TokenizeAtSeparator(a: string, c: char, b: string)
    requires IsSeparator(c)
    ensures Tokenize(a + [c] + b) == Tokenize(a) + Tokenize(b)
    decreases |a|
  {
    var s := a + [c] + b;
    if |a| == 0 {
      assert s[1..] == b;
    } else if IsSeparator(a[0]) {
      assert s[1..] == a[1..] + [c] + b;
      TokenizeAtSeparator(a[1..], c, b);
    } else {
      var n := WordLength(a);
      WordLengthBeforeSeparator(a, c, b);
      assert s[..n] == a[..n];
      assert s[n..] == a[n..] + [c] + b;
      TokenizeAtSeparator(a[n..], c, b);
    }
  }

  /** Writes tokens back out, each followed by one blank. */
  function Render(ts: seq<string>): string {
    if |ts| == 0 then [] else ts[0] + " " + Render(ts[1..])
  }

  lemma WordLengthOfToken(t: string, rest: string)
    requires IsToken(t)
    ensures WordLength(t + " " + rest) == |t|
    decreases |t|
  {
    if |t| > 1 {
      assert (t + " " + rest)[1..] == t[1..] + " " + rest;
      WordLengthOfToken(t[1..], rest);
    }
  }

  /** Tokenizing rendered tokens gives the same tokens back. */
  lemma {:induction false} TokenizeRender(ts: seq<string>)
    requires forall k :: 0 <= k < |ts| ==> IsToken(ts[k])
    ensures Tokenize(Render(ts)) == ts
  {
    if |ts| > 0 {
      var t, rest := ts[0], Render(ts[1..]);
      var s := t + " " + rest;
      assert Render(ts) == s;
      WordLengthOfToken(t, rest);
      assert s[..|t|] == t;
      assert s[|t|..] == " " + rest;
      assert (" " + rest)[1..] == rest;
      TokenizeRender(ts[1..]);
    }
  }
}
